=== FILE: README.md ===
# TempoZen metronome — a Dafny model

TempoZen is a browser metronome. Its engine, `MetronomeAudio`, is a lookahead scheduler. Every
25 ms it wakes up and hands to the audio graph every click whose time falls less than 0.1 s past
the audio clock. Each click is 1000 Hz on the first beat of the bar and 800 Hz on every other
beat, and it defers a beat notification for the beat dots. Around the engine sit three React
components:

- the App component, which holds the tempo, time signature, play state, shown beat and practice
  timer;
- the settings panel, with the timer field and the prompt for a generated background;
- the visualizer, which draws one dot per beat and lights the one being played.

This project models that code in Dafny and proves what it promises.

- `types.dfy` (module `Types`) and `constants.dfy` (module `Constants`) hold the enumerations and
  the fixed configuration: tempo bounds, defaults, the lookahead window, and the time-signature
  list.
- `js_text.dfy` (module `JsText`) holds the ECMAScript behaviour the components depend on:
  - global `parseInt` without a radix (section 19.2.5 of ECMA-262), with NaN as `None`;
  - `Number.prototype.toString` on integers;
  - `padStart`, `trim` and the truncating `%`.
- `metronome_audio.dfy` (module `MetronomeService`) holds the engine as the class
  `MetronomeAudio`:
  - The scheduler's `while` loop (`ScheduleDue`) is proved against a pure reference, the
    function `SchedulePass`. Lemmas about that function give the loop's exit condition,
    increasing times, beat wrap-around, and the closed form of the k-th click of a run.
  - The audio clock is a parameter (`now`) of the operations that read it.
  - Scheduled oscillators are recorded as a log of `Note(beat, time, freq, stopTime)`.
  - Deferred beat notifications are a list of pending callbacks, which the environment fires
    with `Fire`.
- `visualizer.dfy` (module `VisualizerComponent`) models the dot list and its styling.
- `settings_panel.dfy` (module `SettingsPanelComponent`) models the settings panel as a class.
  The calls to the parent's `onTimerSet` and to the image service are recorded as lists.
- `app.dfy` (module `AppComponent`) models the App component as a class that owns the engine:
  - each `useState` variable is a field;
  - each effect is a method, called at the end of the state change that triggers it;
  - a countdown interval tick is a method call.

Time is an exact `real`, and integers are unbounded.

## Model

| member | source | states |
|---|---|---|
| Types.TimeSignature.Value | types.ts:6-13 | each time signature's numeric value, the beats per bar, is between 1 and 6 |
| Constants.BpmBoundsOrdered | constants.ts:3-5 | 0 < MIN_BPM ≤ DEFAULT_BPM ≤ MAX_BPM, with the values 30, 120 and 300 |
| Constants.WakeupShorterThanWindow | constants.ts:9-10 | the 25 ms wake-up period is positive and shorter than the 0.1 s scheduling window |
| Constants.DefaultIsFourFour | constants.ts:6 | the default time signature is four-four, i.e. 4 beats per bar |
| Constants.TimeSignatureOptionsWellFormed | constants.ts:12-19 | the dropdown lists the values 1..6 in ascending order, each exactly once, and `parseInt` reads each label as its value |
| JsText.TrimEmptyIffBlank | components/SettingsPanel.tsx:21 | `trim` yields the empty string exactly when every character is white space or a line terminator |
| JsText.TrimStart | components/SettingsPanel.tsx:21 | removes exactly the leading white space: the result is a suffix of the text, everything cut off is white space, and it starts with no white space |
| JsText.TrimEnd | components/SettingsPanel.tsx:21 | removes exactly the trailing white space: the result is a prefix of the text, everything cut off is white space, and it ends with no white space |
| JsText.Trim | components/SettingsPanel.tsx:21 | `trim` keeps the contiguous part of the text after its leading white space; everything cut off on either side is white space, and the result neither starts nor ends with white space |
| JsText.ParseInt | components/SettingsPanel.tsx:44 | `parseInt` is NaN for a blank text and for a text whose first non-space character is neither a sign nor a digit; a leading decimal digit (without `0x`) gives a non-negative number; a negative result needs a leading `-` |
| JsText.ParseUnsigned | components/SettingsPanel.tsx:44 | the unsigned part is never negative; it is NaN unless the text starts with a digit; after `0x`/`0X` it is a number exactly when a hexadecimal digit follows; a leading decimal digit without that prefix always gives a number |
| JsText.ParseDigits | components/SettingsPanel.tsx:44 | the digit run yields a number exactly when the text starts with a digit of the radix, and that number is non-negative |
| JsText.ParseIntDecimalPrefix | components/SettingsPanel.tsx:44 | `parseInt` on a text starting with n decimal digits (and no `0x`) gives the value of those digits and ignores the rest |
| JsText.NatToString | App.tsx:117 | `toString` of a non-negative integer gives decimal digits without a leading zero, one digit exactly below 10, and reads back to the number |
| JsText.IntToString | App.tsx:117 | `toString` of an integer is non-empty, starts with `-` exactly for a negative integer, and is otherwise made of decimal digits |
| JsText.ParseIntToString | components/SettingsPanel.tsx:18 | `parseInt(i.toString())` gives `i` back, for every integer |
| JsText.PadStart | App.tsx:117 | `padStart(len, fill)` gives length max(len, \|s\|), ends in `s`, and fills only with `fill` in front |
| JsText.JsRemainder | App.tsx:116 | `%` takes the dividend's sign, its magnitude is below the divisor's, and for non-negative operands it is the mathematical remainder |
| MetronomeService.SecondsPerBeat | services/metronomeAudio.ts:72 | a beat lasts a positive time, and that time multiplied by bpm is 60 s |
| MetronomeService.NextBeat | services/metronomeAudio.ts:81-84 | the index goes one up, or back to 0 once it reaches the bar length; from a non-negative index and a bar of at least 1 it stays inside [0, beatsPerBar) |
| MetronomeService.Frequency | services/metronomeAudio.ts:97-103 | 1000 Hz exactly for beat 0, and 800 Hz exactly for every other beat |
| MetronomeService.CallbackDelay | services/metronomeAudio.ts:115-117 | the notification delay is never negative: (time − now)·1000 ms when the note is ahead of the clock, 0 when it is behind |
| MetronomeService.Callbacks | services/metronomeAudio.ts:119-123 | a pass defers exactly one notification per note |
| MetronomeService.CallbacksAt | services/metronomeAudio.ts:115-123 | the k-th notification reports the k-th note's beat, with the delay computed from that note's time |
| MetronomeService.Deliver | services/metronomeAudio.ts:120-122 | a firing notification hands its beat to the UI exactly when the engine is playing, and hands nothing otherwise |
| MetronomeService.Step | services/metronomeAudio.ts:69-85 | one `nextNote`: the time moves strictly forward; from a non-negative index the beat goes back to 0 exactly at the end of the bar; an index inside the bar stays inside it |
| MetronomeService.Advance | services/metronomeAudio.ts:59-62 | repeated `nextNote` with tempo and bar fixed keeps an index that starts inside the bar inside it |
| MetronomeService.AdvanceTime | services/metronomeAudio.ts:79 | k advances move the time cursor by exactly k·60/bpm |
| MetronomeService.AdvanceBeat | services/metronomeAudio.ts:81-84 | from an index inside the bar, k advances reach index (beat + k) mod beatsPerBar |
| MetronomeService.RunClosedForm | services/metronomeAudio.ts:41-84 | with tempo and bar fixed after a start at clock t0, the k-th click has beat k mod B, time t0 + 0.1 + k·60/bpm, and the matching pitch and stop time |
| MetronomeService.StaleBeatWraps | services/metronomeAudio.ts:59-84 | when the bar is shortened below the current index, the next pass first plays that index as it is; the k-th advance after it is at beat (k − 1) mod B |
| MetronomeService.AdvanceIncreasing | services/metronomeAudio.ts:79 | a later advance is strictly later in time |
| MetronomeService.SchedulePass | services/metronomeAudio.ts:59-62 | a pass always ends with the cursor at or past `now + 0.1`, and it schedules something exactly when the cursor started before that point |
| MetronomeService.PassFollowsRun | services/metronomeAudio.ts:59-62 | a pass schedules the successive advances of its start cursor, every one before the horizon, and stops at the first advance at or past it |
| MetronomeService.PassTimesIncrease | services/metronomeAudio.ts:59-62 | the notes of one pass have strictly increasing times |
| MetronomeService.PassUnique | services/metronomeAudio.ts:59-62 | the loop's result is determined by its exit condition: any run prefix below the horizon followed by a cursor past it is that pass |
| MetronomeService.PassContinuesRun | services/metronomeAudio.ts:41-84 | every later pass of a run started at t0 continues the closed form: its k-th note is note m + k of the run |
| MetronomeService.PassWithinWindow | services/metronomeAudio.ts:59-62 | every note of a pass lies between the starting cursor's time and the horizon, in strictly increasing time order |
| MetronomeService.ConsecutivePassesInOrder | services/metronomeAudio.ts:54-67 | two passes in a row, the second starting where the first stopped, hand over notes in strictly increasing time order, even when the tempo and the bar length differ between the two passes (a `setBpm`/`setBeatsPerBar` between wake-ups) |
| MetronomeService.MetronomeAudio.constructor | services/metronomeAudio.ts:4-19 | a new engine has no context, is not playing, has no pending wake-up, is at 120 bpm, 4 beats, beat 0, time 0, and has empty logs |
| MetronomeService.MetronomeAudio.SetBpm | services/metronomeAudio.ts:21-23 | stores the tempo and changes nothing else |
| MetronomeService.MetronomeAudio.SetBeatsPerBar | services/metronomeAudio.ts:25-27 | stores the bar length and changes nothing else |
| MetronomeService.MetronomeAudio.Start | services/metronomeAudio.ts:29-45 | a no-op while playing; otherwise it plays, creates a context only if none exists (so at most one is ever created), sets beat 0 at now + 0.1, schedules nothing with the same clock reading, and arms the wake-up |
| MetronomeService.MetronomeAudio.Stop | services/metronomeAudio.ts:47-52 | afterwards the engine is not playing and no wake-up is pending, whatever the state before; calling it again changes nothing |
| MetronomeService.MetronomeAudio.Tick | services/metronomeAudio.ts:64-65 | a pending wake-up fires: it runs one pass of the scheduler from the current cursor and re-arms, since only a playing engine has a wake-up pending |
| MetronomeService.MetronomeAudio.Scheduler | services/metronomeAudio.ts:54-67 | without a context nothing changes; otherwise the log, notifications and cursor advance by exactly `SchedulePass`, and the wake-up is re-armed only while playing |
| MetronomeService.MetronomeAudio.ScheduleDue | services/metronomeAudio.ts:59-62 | the `while` loop appends exactly the notes and notifications of `SchedulePass` and leaves the cursor where that pass ends |
| MetronomeService.MetronomeAudio.NextNote | services/metronomeAudio.ts:69-85 | adds exactly 60/bpm with the tempo current at the call, and moves the index to `NextBeat` under the bar length current at the call |
| MetronomeService.MetronomeAudio.ScheduleNote | services/metronomeAudio.ts:87-124 | with a context, logs one note (beat, time, pitch by beat, stop at time + 0.03) and one notification delayed by `CallbackDelay`; without one, it does nothing |
| MetronomeService.MetronomeAudio.Fire | services/metronomeAudio.ts:119-123 | removes the fired notification; its beat reaches the UI, and is recorded as delivered, only if the engine is playing at that moment |
| VisualizerComponent.DotFor | components/Visualizer.tsx:15-33 | a dot carries its beat index and is active exactly when that index is the active beat |
| VisualizerComponent.BeatIndices | components/Visualizer.tsx:10 | `Array.from({length: n}, (_, i) => i)` is 0 .. n − 1 in order, and empty for n ≤ 0 |
| VisualizerComponent.Dots | components/Visualizer.tsx:10-41 | the component renders max(0, beatsPerBar) dots, and the i-th is the dot `DotFor(i, activeBeat)` |
| VisualizerComponent.DotsInOrder | components/Visualizer.tsx:10-14 | there are exactly beatsPerBar dots, indexed 0, 1, ... in order |
| VisualizerComponent.ActiveIffActiveBeat | components/Visualizer.tsx:15 | the i-th dot is active exactly when i is the active beat |
| VisualizerComponent.AtMostOneActive | components/Visualizer.tsx:15 | two active dots are the same dot, the one of the active beat |
| VisualizerComponent.NoneActiveWhenStopped | components/Visualizer.tsx:15-28 | with the stopped value −1 no dot is active and none is large |
| VisualizerComponent.DotStyles | components/Visualizer.tsx:19-33 | an active dot is large with the accent glow exactly on beat 0 and the plain glow otherwise; an inactive first dot is medium and tinted; other inactive dots keep the default small dim style |
| VisualizerComponent.FirstDotNeverDefault | components/Visualizer.tsx:16-33 | a dot has the default style exactly when it is neither the first nor the active one, so the first dot never has it |
| SettingsPanelComponent.InitialLocalTimer | components/SettingsPanel.tsx:18 | for a truthy `timerMinutes` the field starts with text that `parseInt` reads back as that number; otherwise it starts empty |
| SettingsPanelComponent.TimerChoice | components/SettingsPanel.tsx:44-48 | the value passed to `onTimerSet` is a number exactly when `parseInt` reads a number above 0, and then it is that number |
| SettingsPanelComponent.TextAfterApply | components/SettingsPanel.tsx:45-50 | an accepted timer leaves the field unchanged, and a rejected one clears it |
| SettingsPanelComponent.EmptyTextSetsNoTimer | components/SettingsPanel.tsx:44-48 | the empty field reads as NaN and sets no timer |
| SettingsPanelComponent.InitialTimerReadsBack | components/SettingsPanel.tsx:18 | applying the field a freshly opened panel shows for m > 0 minutes sets m minutes again |
| SettingsPanelComponent.ApplyTwiceSameChoice | components/SettingsPanel.tsx:43-51 | applying a second time passes the same value again and leaves the field as it was |
| SettingsPanelComponent.IsBlank | components/SettingsPanel.tsx:21 | `!prompt.trim()` holds exactly when every character of the prompt is white space (the empty prompt included) |
| SettingsPanelComponent.SettingsPanel.constructor | components/SettingsPanel.tsx:16-18 | empty prompt, timer field from `InitialLocalTimer`, and no calls made yet |
| SettingsPanelComponent.SettingsPanel.PromptChange | components/SettingsPanel.tsx:64 | the prompt field takes the typed value |
| SettingsPanelComponent.SettingsPanel.TimerChange | components/SettingsPanel.tsx:39-41 | the timer field takes the typed value |
| SettingsPanelComponent.SettingsPanel.ApplyTimer | components/SettingsPanel.tsx:43-51 | calls `onTimerSet` exactly once, with `TimerChoice` of the field, and leaves the field as `TextAfterApply` says |
| SettingsPanelComponent.SettingsPanel.Clear | components/SettingsPanel.tsx:101 | calls `onTimerSet(null)` once and empties the field |
| SettingsPanelComponent.SettingsPanel.Generate | components/SettingsPanel.tsx:20-24 | a blank prompt sends nothing to the image service; any other prompt is sent once, as typed |
| AppComponent.BpmAdjust | App.tsx:110-112 | the new tempo is always within [MIN_BPM, MAX_BPM]: exactly prev + amount when that is in range, otherwise the nearer bound |
| AppComponent.BpmAdjustMonotone | App.tsx:111 | a larger step never gives a slower tempo |
| AppComponent.BpmAdjustUndo | App.tsx:111 | within the bounds, a step followed by the opposite step returns to the starting tempo |
| AppComponent.FormatTime | App.tsx:114-118 | `formatTime` gives at least 4 characters; for n ≥ 0 the colon is third from the end, so the seconds field is always exactly two characters; a negative n starts with `-` |
| AppComponent.FormatTimeFields | App.tsx:114-118 | for n ≥ 0, `formatTime(n)` is the minutes n div 60 in decimal, a colon, and the seconds n mod 60 as two digits |
| AppComponent.SecondsReadBack | App.tsx:116-117 | the two seconds digits read back as the seconds (below 60), a leading zero included |
| AppComponent.MinutesReadBack | App.tsx:115-117 | `parseInt` on the minutes followed by a text starting with a colon stops at the colon and gives the minutes |
| AppComponent.FormatTimeReadBack | App.tsx:114-118 | for n ≥ 0, `parseInt` of the whole `m:ss` text gives the minutes, `parseInt` of its last two characters gives the seconds, and minutes·60 + seconds is n again |
| AppComponent.FullTimerShowsWholeMinutes | App.tsx:114-118 | a timer of m whole minutes first shows `m:00` |
| AppComponent.CountdownUpdate | App.tsx:74-80 | as written: a positive value counts down by one without a stop; the stop is requested exactly for null or ≤ 0, and then the value becomes 0 |
| AppComponent.WrittenCountdownNeverStops | App.tsx:72-80 | as written, the k-th tick of an r-second countdown leaves r − k seconds and never requests the stop; at 0 the interval is disarmed while playing continues |
| AppComponent.CountdownUpdateFixed | App.tsx:74-80 | corrected: the stop is requested exactly when the result reaches 0, and a positive value counts down by one |
| AppComponent.FixedCountdownStopsAtZero | App.tsx:72-80 | corrected: an r-second countdown runs exactly r ticks, and only the r-th reaches 0 and stops playback |
| AppComponent.RemainingOnTimerSet | App.tsx:225-228 | `onTimerSet(min)` stores min·60 seconds for a truthy min, and null for null or 0 |
| AppComponent.RemainingOnDurationChange | App.tsx:58-68 | the duration effect stores null for a null duration, and the duration times 60 otherwise |
| AppComponent.TimerSetAgreesWithEffect | App.tsx:225-228 | the handler and the duration effect store the same remaining time for every value except 0 minutes |
| AppComponent.TimerArmsWhilePlaying | App.tsx:72 | a positive timer arms the countdown exactly while playing |
| AppComponent.App.constructor | App.tsx:21-47 | the initial state: stopped, 120 bpm, four-four, no shown beat, no timer, no interval, and a fresh engine that is not playing, has no context, no wake-up armed, no logged notes, no pending notifications and no delivered beats, with beat 0 at time 0 |
| AppComponent.App.SyncSettings | App.tsx:50-55 | the engine's tempo and bar length equal the component's |
| AppComponent.App.AdjustBpm | App.tsx:110-112 | the tempo becomes `BpmAdjust(old, amount)` and the engine gets it |
| AppComponent.App.ChangeBpm | App.tsx:106-108 | the slider value becomes the tempo of the component and of the engine |
| AppComponent.App.ChangeTimeSignature | App.tsx:184 | the chosen signature's value becomes the engine's bar length |
| AppComponent.App.CountdownEffect | App.tsx:70-90 | the countdown interval is set exactly when playing with remaining > 0, and cleared in every other state |
| AppComponent.App.StartPlaying | App.tsx:96-98 | the engine starts (beat 0 at now + 0.1, wake-up armed) and the state becomes PLAYING |
| AppComponent.App.StopPlaying | App.tsx:99-103 | the engine stops, the state becomes STOPPED, the shown beat becomes −1, and the interval is cleared |
| AppComponent.App.TogglePlay | App.tsx:93-104 | STOPPED goes to PLAYING with the engine started at beat 0 at now + 0.1, a context, and the wake-up armed; PLAYING goes to STOPPED with the engine stopped, the wake-up cancelled and the shown beat −1; either way the engine's note log, pending notifications, delivered beats, tempo and bar length are left as they were |
| AppComponent.App.DurationEffect | App.tsx:58-68 | sets the remaining seconds as `RemainingOnDurationChange` says |
| AppComponent.App.OnTimerSet | App.tsx:225-228 | stores the duration; the remaining time is min·60 for a truthy min and null for null; 0 minutes gives null or 0 s depending on whether the duration changed; only a positive timer can arm the countdown |
| AppComponent.App.CountdownTick | App.tsx:73-81 | as written: a positive count goes one second down and keeps playing with the engine's wake-up left as it was, the interval staying armed only above 1 s; null or ≤ 0 becomes 0 and stops playback; so a tick of the armed interval never stops playback |
| AppComponent.App.CountdownTickFixed | App.tsx:73-81 | corrected: one second less on every tick of the armed interval; the tick that reaches 0 stops playback, and earlier ticks keep playing with the interval armed and the engine's wake-up left as it was |
| AppComponent.App.FireBeat | App.tsx:41-43 | a delivered beat becomes the shown beat while playing; when stopped the shown beat stays −1; the notification leaves the pending list, and its beat is appended to the delivered beats exactly while playing |

## Left out

- Web Audio: the context and its `resume`, the oscillator and gain nodes, and the envelope ramps are a foreign API. The model logs the click each call would produce, and `hasContext` stands for a non-null context.
- Timers: `setTimeout`, `clearTimeout` and `setInterval` are not modelled. A pending engine wake-up is the flag `tickArmed`, and a live countdown interval is the flag `countdownArmed`. Their firings are the method calls `Tick`, `Fire` and `CountdownTick`, made by the environment. Timer precision and jitter are not modelled.
- Floating point: `60 / bpm`, the millisecond delay and all times are exact reals, and `toString` never switches to exponent form (from 1e21 upwards). `parseInt` keeps full precision on long digit runs.
- MetronomeService.MetronomeAudio.Scheduler: the loop reads the audio clock once per pass, as the parameter `now`. The source re-reads `currentTime` on every iteration and in every `scheduleNote`.
- MetronomeService.MetronomeAudio.SetBpm: requires a positive tempo. The App only ever passes a tempo between 30 and 300. At 0 the source's beat length would be Infinity, and a negative tempo would keep its loop from ending.
- MetronomeService.MetronomeAudio: the closed form of a whole run is not carried as a class invariant. It is proved about `SchedulePass` in `RunClosedForm`, `PassContinuesRun` and `ConsecutivePassesInOrder`, and `Scheduler` is tied to `SchedulePass` pass by pass.
- Notifications deferred before a `stop` remain pending. If they fire after a quick restart, `Fire` delivers them, exactly as the source's `isPlaying` check does.
- The engine has exactly one sine click (1000/800 Hz), and `start` has no failure path. There are no selectable timbres, no noise buffer and no `setTimbre`.
- React machinery is not modelled: rendering, CSS classes and icons, batching of state updates, and effect scheduling. Each effect runs right after the state change that triggers it.
- The `metronomeRef` null guard of `handleTogglePlay` is not modelled, because the engine is created at mount, before any handler can run. The unmount cleanup (`stop` at App.tsx:44-46) is not modelled either.
- The stale `playState` closure that the countdown interval captures (App.tsx:89) is not modelled.
- The visibility of the Clear button (only shown while a timer is set) is not modelled. Neither is the panel receiving a new `timerMinutes` prop after mount, or showing "Set" versus "Update".
- AppComponent.App.ChangeBpm: requires a value between MIN_BPM and MAX_BPM. The browser's range input never yields anything else, and `Number(...)` of its value is not modelled.
- services/geminiService.ts is not part of this model. It is a network call to an image-generation service; `Generate` only records the prompt it would send.
- The `await`, the `alert` on failure, the loading flag and the background update after `handleGenerate` are not modelled.
- The background image, the settings toggle, and the `MetronomeSettings` and `BackgroundState` records carry no behaviour the model depends on.

## Findings

| source | as written | input that shows it | evidently intended | confidence | as-written member | corrected member |
|---|---|---|---|---|---|---|
| App.tsx:72-80 | the updater asks for the stop (`handleTogglePlay`) only when it sees null or a value ≤ 0, but the interval is only armed while the remaining time is above 0 | a 1-minute timer while playing: each of the 60 ticks counts down without a stop request; at 0 the effect clears the interval and the metronome keeps playing | playback stops when the countdown reaches 0 ("Stop when done") | not executed; high, assuming the effect re-runs before the next one-second tick | AppComponent.WrittenCountdownNeverStops | AppComponent.App.CountdownTickFixed |

=== FILE: app.dfy ===
/** The top-level component of App.tsx: the tempo buttons and slider, the time-signature choice,
    the play/stop button driving the audio engine, the beat shown by the dots, and the practice
    timer with its countdown. React state is modelled as the fields of a class, each effect as a
    method the state change that triggers it calls at its end, and each interval tick as a method
    call. */
module AppComponent {
  import opened Wrappers
  import opened Types
  import opened Constants
  import opened JsText
  import opened MetronomeService

  /** `handleBpmAdjust`'s updater: `prev + amount` held within [MIN_BPM, MAX_BPM]. */
  function BpmAdjust(prev: int, amount: int): (r: int)
    ensures MIN_BPM <= r <= MAX_BPM
    ensures MIN_BPM <= prev + amount <= MAX_BPM ==> r == prev + amount
    ensures prev + amount < MIN_BPM ==> r == MIN_BPM
    ensures prev + amount > MAX_BPM ==> r == MAX_BPM
  {
    var raised := if MIN_BPM > prev + amount then MIN_BPM else prev + amount;
    if MAX_BPM < raised then MAX_BPM else raised
  }

  /** A larger step never gives a slower tempo. */
  lemma BpmAdjustMonotone(prev: int, a: int, b: int)
    requires a <= b
    ensures BpmAdjust(prev, a) <= BpmAdjust(prev, b)
  {
  }

  /** Within the bounds, the `-` button undoes the `+` button and the other way round. */
  lemma BpmAdjustUndo(prev: int, amount: int)
    requires MIN_BPM <= prev <= MAX_BPM && MIN_BPM <= prev + amount <= MAX_BPM
    ensures BpmAdjust(BpmAdjust(prev, amount), -amount) == prev
  {
  }

  /** `formatTime`: whole minutes (`Math.floor(seconds / 60)`), a colon, and the remainder
      `seconds % 60` padded on the left with `0` to two characters. */
  function FormatTime(seconds: int): (r: string)
    ensures |r| >= 4
    ensures seconds >= 0 ==> r[|r| - 3] == ':'
    ensures seconds < 0 ==> r[0] == '-'
  {
    var m := seconds / 60;
    var s := JsRemainder(seconds, 60);
    var minutes := IntToString(m);
    var secs := PadStart(IntToString(s), 2, '0');
    var r := minutes + ":" + secs;
    assert seconds >= 0 ==> r[|r| - 3] == ':' by {
      if seconds >= 0 {
        assert IntToString(s) == NatToString(s);
        assert |secs| == 2;
        assert r[|minutes|] == ':';
      }
    }
    assert seconds < 0 ==> r[0] == '-' by {
      if seconds < 0 {
        assert m < 0;
        assert r[0] == minutes[0];
      }
    }
    r
  }

  /** Two decimal digits for a value below 100, the first one `0` below 10. */
  function TwoDigits(s: nat): (t: string)
    requires s < 100
    ensures |t| == 2 && AllDecimal(t)
  {
    [DecimalDigit(s / 10), DecimalDigit(s % 10)]
  }

  /** For a non-negative count of seconds, `formatTime` writes the minutes (seconds div 60) in
      decimal without leading zeros, a colon, and the seconds left over (seconds mod 60) as two
      digits. */
  lemma {:induction false} FormatTimeFields(seconds: int)
    requires seconds >= 0
    ensures FormatTime(seconds) == NatToString(seconds / 60) + ":" + TwoDigits(seconds % 60)
  {
    var m, s := seconds / 60, seconds % 60;
    assert JsRemainder(seconds, 60) == s;
    assert IntToString(m) == NatToString(m);
    assert IntToString(s) == NatToString(s);
    TwoDigitSeconds(s);
  }

  /** The seconds field: a value below 60 padded to its two decimal digits. */
  lemma {:induction false} TwoDigitSeconds(n: nat)
    requires n < 60
    ensures PadStart(NatToString(n), 2, '0') == TwoDigits(n)
  {
    var s := NatToString(n);
    if n < 10 {
      assert s == [DecimalDigit(n)];
    } else {
      assert s == NatToString(n / 10) + [DecimalDigit(n % 10)];
    }
  }

  /** The seconds field of `m:ss` reads back, through `parseInt`, as the seconds left over. */
  lemma {:induction false} SecondsReadBack(s: nat)
    requires s < 60
    ensures ParseInt(TwoDigits(s)) == Some(s)
  {
    ParseTwoDigits(TwoDigits(s));
    assert s / 10 * 10 + s % 10 == s;
  }

  /** The minutes field reads back: `parseInt` on the whole `m:ss` text stops at the colon and
      gives the minutes. */
  lemma {:induction false} MinutesReadBack(m: nat, rest: string)
    requires rest != [] && rest[0] == ':'
    ensures ParseInt(NatToString(m) + rest) == Some(m)
  {
    ParseStopsAtColon(NatToString(m), rest);
    assert IntToString(m) == NatToString(m);
    ParseIntToString(m);
  }

  /** Reading the shown text back: `parseInt` of the whole `m:ss` text gives the minutes,
      `parseInt` of its last two characters gives the seconds, and minutes * 60 + seconds is the
      count `formatTime` was given. */
  lemma {:induction false} FormatTimeReadBack(n: nat)
    ensures var t := FormatTime(n);
      |t| >= 2 && ParseInt(t).Some? && ParseInt(t[|t| - 2..]).Some?
      && ParseInt(t).value * 60 + ParseInt(t[|t| - 2..]).value == n
  {
    var m, s := n / 60, n % 60;
    var a, b := NatToString(m), TwoDigits(s);
    var t := FormatTime(n);
    assert t == a + (":" + b) && t[|t| - 2..] == b by {
      FormatTimeFields(n);
      JoinFields(a, b);
    }
    assert ParseInt(t) == Some(m) by {
      MinutesReadBack(m, ":" + b);
    }
    assert ParseInt(b) == Some(s) by {
      SecondsReadBack(s);
    }
  }

  /** The text `a:b` with a two-character `b` ends in `b`. */
  lemma JoinFields(a: string, b: string)
    requires |b| == 2
    ensures var t := a + ":" + b; t == a + (":" + b) && t[|t| - 2..] == b
  {
  }

  /** A timer set to `minutes` whole minutes first shows `minutes:00`. */
  lemma {:induction false} FullTimerShowsWholeMinutes(minutes: nat)
    ensures FormatTime(minutes * 60) == IntToString(minutes) + ":00"
  {
    assert JsRemainder(minutes * 60, 60) == 0;
    assert IntToString(0) == "0";
  }

  /** One step of the countdown: the value stored as the remaining seconds, and whether the step
      asks playback to stop (by calling `handleTogglePlay`). */
  datatype CountdownStep = CountdownStep(remaining: int, stop: bool)

  /** Whether the countdown interval is set: only while playing with seconds left. */
  predicate IntervalArmed(playState: PlayState, remaining: Option<int>)
  {
    playState == Playing && remaining.Some? && remaining.value > 0
  }

  /** The countdown updater as App.tsx writes it: null or a value of at most 0 becomes 0 and asks
      for a stop; a positive value counts down by one second. */
  function CountdownUpdate(prev: Option<int>): (s: CountdownStep)
    ensures s.remaining >= 0
    ensures s.stop <==> prev.None? || prev.value <= 0
    ensures s.stop ==> s.remaining == 0
    ensures !s.stop ==> s.remaining == prev.value - 1
  {
    if prev.None? || prev.value <= 0 then CountdownStep(0, true)
    else CountdownStep(prev.value - 1, false)
  }

  /** `k` ticks of the updater as written, starting from `r` seconds. */
  function WrittenRun(r: int, k: nat): CountdownStep
  {
    if k == 0 then CountdownStep(r, false) else CountdownUpdate(Some(WrittenRun(r, k - 1).remaining))
  }

  /** As written, the stop is never requested: the interval only ticks while the remaining time is
      above 0, so each of the `r` ticks from `r` seconds counts down without a stop, and once the
      time reaches 0 the interval is cleared while the metronome goes on playing. */
  lemma {:induction false} WrittenCountdownNeverStops(r: int, k: nat)
    requires 1 <= k <= r
    ensures WrittenRun(r, k) == CountdownStep(r - k, false)
    ensures k == r ==> !IntervalArmed(Playing, Some(WrittenRun(r, k).remaining))
  {
    if k > 1 {
      WrittenCountdownNeverStops(r, k - 1);
    }
  }

  /** The countdown updater as intended by its "stop when done" branch: counting down to 0 is the
      last step and asks for the stop; null or a value of at most 0 also gives 0 and a stop. */
  function CountdownUpdateFixed(prev: Option<int>): (s: CountdownStep)
    ensures s.remaining >= 0
    ensures s.stop <==> s.remaining == 0
    ensures prev.Some? && prev.value > 0 ==> s.remaining == prev.value - 1
  {
    if prev.None? || prev.value <= 1 then CountdownStep(0, true)
    else CountdownStep(prev.value - 1, false)
  }

  /** `k` ticks of the corrected updater, starting from `r` seconds. */
  function FixedRun(r: int, k: nat): CountdownStep
  {
    if k == 0 then CountdownStep(r, false) else CountdownUpdateFixed(Some(FixedRun(r, k - 1).remaining))
  }

  /** A timer of `r` seconds runs for exactly `r` ticks: every tick before the last counts down
      by one and keeps playing, and the `r`-th tick reaches 0 and stops playback. */
  lemma {:induction false} FixedCountdownStopsAtZero(r: int, k: nat)
    requires 1 <= k <= r
    ensures FixedRun(r, k) == CountdownStep(r - k, k == r)
  {
    if k > 1 {
      FixedCountdownStopsAtZero(r, k - 1);
    }
  }

  /** The remaining seconds `onTimerSet(min)` stores: `min * 60` for a truthy `min` (present and
      not 0), null otherwise. */
  function RemainingOnTimerSet(min: Option<int>): (r: Option<int>)
    ensures r.Some? <==> min.Some? && min.value != 0
    ensures r.Some? ==> r.value == min.value * 60
  {
    if min.Some? && min.value != 0 then Some(min.value * 60) else None
  }

  /** The remaining seconds the duration effect stores when `timerDurationMinutes` changes: null
      for a null duration, the duration in seconds otherwise. */
  function RemainingOnDurationChange(duration: Option<int>): (r: Option<int>)
    ensures r.Some? <==> duration.Some?
    ensures r.Some? ==> r.value == duration.value * 60
  {
    if duration.None? then None else Some(duration.value * 60)
  }

  /** The handler and the duration effect agree on every value except 0 minutes, where the handler
      stores null and the effect 0 seconds. */
  lemma TimerSetAgreesWithEffect(min: Option<int>)
    ensures RemainingOnTimerSet(min) == RemainingOnDurationChange(min) <==> min != Some(0)
  {
  }

  /** A positive number of minutes arms the countdown as soon as the metronome plays. */
  lemma TimerArmsWhilePlaying(min: int, playState: PlayState)
    requires min > 0
    ensures IntervalArmed(playState, RemainingOnTimerSet(Some(min))) <==> playState == Playing
  {
  }

  /** The App component's state and the audio engine it owns (`metronomeRef.current`). */
  class App {
    var playState: PlayState
    var bpm: int
    var timeSignature: TimeSignature
    /** The beat index the dots show; -1 when none. */
    var activeBeat: int
    var timerDurationMinutes: Option<int>
    var timerRemainingSeconds: Option<int>
    /** Whether `timerIntervalRef` holds a live countdown interval. */
    var countdownArmed: bool
    const metronome: MetronomeAudio

    ghost predicate Valid()
      reads this, metronome
    {
      metronome.Valid()
      && (playState == Playing <==> metronome.isPlaying)
      && MIN_BPM <= bpm <= MAX_BPM
      && metronome.bpm == bpm && metronome.beatsPerBar == timeSignature.Value()
      && activeBeat >= -1
      && (playState == Stopped ==> activeBeat == -1)
      && countdownArmed == IntervalArmed(playState, timerRemainingSeconds)
    }

    /** Mounting: the initial state, the engine created by the mount effect, and the settings
        and timer effects run once (they leave that state as it is). */
    constructor ()
      ensures Valid() && fresh(metronome)
      ensures playState == Stopped && bpm == DEFAULT_BPM && timeSignature == DEFAULT_TIME_SIGNATURE
      ensures activeBeat == -1 && timerDurationMinutes == None && timerRemainingSeconds == None
      ensures !countdownArmed && !metronome.hasContext && metronome.log == []
      ensures !metronome.isPlaying && !metronome.tickArmed
        && metronome.pending == [] && metronome.delivered == []
      ensures metronome.currentBeat == 0 && metronome.nextNoteTime == 0.0
    {
      playState := Stopped;
      bpm := DEFAULT_BPM;
      timeSignature := DEFAULT_TIME_SIGNATURE;
      activeBeat := -1;
      timerDurationMinutes := None;
      timerRemainingSeconds := None;
      countdownArmed := false;
      metronome := new MetronomeAudio();
    }

    /** The settings effect: hands the current tempo and bar length to the engine. */
    method SyncSettings()
      requires metronome.Valid() && bpm > 0
      modifies metronome`bpm, metronome`beatsPerBar
      ensures metronome.Valid()
      ensures metronome.bpm == bpm && metronome.beatsPerBar == timeSignature.Value()
    {
      metronome.SetBpm(bpm);
      metronome.SetBeatsPerBar(timeSignature.Value());
    }

    /** The `-` and `+` buttons: move the tempo by `amount` within the bounds. */
    method AdjustBpm(amount: int)
      requires Valid()
      modifies this`bpm, metronome`bpm, metronome`beatsPerBar
      ensures Valid()
      ensures bpm == BpmAdjust(old(bpm), amount) && metronome.bpm == bpm
    {
      bpm := BpmAdjust(bpm, amount);
      SyncSettings();
    }

    /** The tempo slider; the range input only yields values between its `min` and `max`. */
    method ChangeBpm(value: int)
      requires Valid() && MIN_BPM <= value <= MAX_BPM
      modifies this`bpm, metronome`bpm, metronome`beatsPerBar
      ensures Valid()
      ensures bpm == value && metronome.bpm == value
    {
      bpm := value;
      SyncSettings();
    }

    /** The time-signature dropdown. */
    method ChangeTimeSignature(ts: TimeSignature)
      requires Valid()
      modifies this`timeSignature, metronome`bpm, metronome`beatsPerBar
      ensures Valid()
      ensures timeSignature == ts && metronome.beatsPerBar == ts.Value()
    {
      timeSignature := ts;
      SyncSettings();
    }

    /** The countdown effect: the interval is set exactly when playing with seconds left. */
    method CountdownEffect()
      modifies this`countdownArmed
      ensures countdownArmed == IntervalArmed(playState, timerRemainingSeconds)
    {
      if playState == Playing && timerRemainingSeconds.Some? && timerRemainingSeconds.value > 0 {
        countdownArmed := true;
      } else {
        countdownArmed := false;
      }
    }

    /** `handleTogglePlay` from STOPPED: start the engine at audio clock `now`. */
    method StartPlaying(now: real)
      requires Valid() && playState == Stopped
      modifies this`playState, this`countdownArmed, metronome
      ensures Valid()
      ensures playState == Playing && metronome.isPlaying && metronome.tickArmed
      ensures metronome.currentBeat == 0 && metronome.nextNoteTime == now + START_OFFSET_SEC
      ensures metronome.log == old(metronome.log) && metronome.pending == old(metronome.pending)
      ensures metronome.delivered == old(metronome.delivered) && metronome.hasContext
    {
      metronome.Start(now);
      playState := Playing;
      CountdownEffect();
    }

    /** `handleTogglePlay` from PLAYING: stop the engine and clear the shown beat. */
    method StopPlaying()
      requires Valid() && playState == Playing
      modifies this`playState, this`activeBeat, this`countdownArmed, metronome`isPlaying, metronome`tickArmed
      ensures Valid()
      ensures playState == Stopped && activeBeat == -1 && !countdownArmed
      ensures !metronome.isPlaying && !metronome.tickArmed
    {
      metronome.Stop();
      playState := Stopped;
      activeBeat := -1;
      CountdownEffect();
    }

    /** `handleTogglePlay`: STOPPED starts the engine and moves to PLAYING; PLAYING stops it,
        moves to STOPPED and resets the shown beat to -1. */
    method TogglePlay(now: real)
      requires Valid()
      modifies this`playState, this`activeBeat, this`countdownArmed, metronome
      ensures Valid()
      ensures playState != old(playState) && metronome.isPlaying == (playState == Playing)
      ensures old(playState) == Stopped ==>
        activeBeat == old(activeBeat)
        && metronome.currentBeat == 0 && metronome.nextNoteTime == now + START_OFFSET_SEC
      ensures old(playState) == Stopped ==> metronome.tickArmed && metronome.hasContext
      ensures old(playState) == Playing ==>
        activeBeat == -1 && !metronome.tickArmed
        && metronome.hasContext == old(metronome.hasContext)
        && metronome.currentBeat == old(metronome.currentBeat)
        && metronome.nextNoteTime == old(metronome.nextNoteTime)
      ensures metronome.log == old(metronome.log) && metronome.pending == old(metronome.pending)
        && metronome.delivered == old(metronome.delivered)
      ensures metronome.bpm == old(metronome.bpm) && metronome.beatsPerBar == old(metronome.beatsPerBar)
      ensures countdownArmed <==> playState == Playing && IntervalArmed(Playing, timerRemainingSeconds)
    {
      if playState == Stopped {
        StartPlaying(now);
      } else {
        StopPlaying();
      }
    }

    /** The duration effect, run when `timerDurationMinutes` changes. */
    method DurationEffect()
      modifies this`timerRemainingSeconds
      ensures timerRemainingSeconds == RemainingOnDurationChange(timerDurationMinutes)
    {
      if timerDurationMinutes.None? {
        timerRemainingSeconds := None;
        return;
      }
      timerRemainingSeconds := Some(timerDurationMinutes.value * 60);
    }

    /** `onTimerSet(min)` from the settings panel: store the duration and the remaining seconds;
        when the duration changed its effect then runs, and the countdown effect follows. */
    method OnTimerSet(min: Option<int>)
      requires Valid()
      modifies this`timerDurationMinutes, this`timerRemainingSeconds, this`countdownArmed
      ensures Valid()
      ensures timerDurationMinutes == min
      ensures min != Some(0) ==> timerRemainingSeconds == RemainingOnTimerSet(min)
      ensures min == Some(0) ==>
        timerRemainingSeconds == if old(timerDurationMinutes) == min then None else Some(0)
      ensures !(min.Some? && min.value > 0) ==> !countdownArmed
    {
      var changed := min != timerDurationMinutes;
      timerDurationMinutes := min;
      timerRemainingSeconds := if min.Some? && min.value != 0 then Some(min.value * 60) else None;
      if changed {
        DurationEffect();
        TimerSetAgreesWithEffect(min);
      }
      CountdownEffect();
    }

    /** One tick of the countdown interval as App.tsx writes it: null or a value of at most 0
        becomes 0 and calls `handleTogglePlay`, which stops playback; a positive value counts
        down by one second. While the interval is armed the value is positive, so the stop is
        never taken and playback goes on after the count reaches 0. */
    method CountdownTick()
      requires Valid() && playState == Playing
      modifies this`timerRemainingSeconds, this`playState, this`activeBeat, this`countdownArmed,
        metronome`isPlaying, metronome`tickArmed
      ensures Valid()
      ensures old(timerRemainingSeconds).Some? && old(timerRemainingSeconds.value) > 0 ==>
        timerRemainingSeconds == Some(old(timerRemainingSeconds.value) - 1)
        && playState == Playing && metronome.isPlaying && activeBeat == old(activeBeat)
        && metronome.tickArmed == old(metronome.tickArmed)
        && (countdownArmed <==> old(timerRemainingSeconds.value) > 1)
      ensures old(timerRemainingSeconds).None? || old(timerRemainingSeconds.value) <= 0 ==>
        timerRemainingSeconds == Some(0)
        && playState == Stopped && activeBeat == -1 && !countdownArmed && !metronome.isPlaying
      ensures old(countdownArmed) ==> playState == Playing && metronome.isPlaying
    {
      var step := CountdownUpdate(timerRemainingSeconds);
      timerRemainingSeconds := Some(step.remaining);
      CountdownEffect();
      if step.stop {
        StopPlaying();
      }
    }

    /** One tick of the countdown interval with the corrected updater: one second less, and on
        reaching 0 playback stops through `handleTogglePlay`. */
    method CountdownTickFixed()
      requires Valid() && countdownArmed
      modifies this`timerRemainingSeconds, this`playState, this`activeBeat, this`countdownArmed,
        metronome`isPlaying, metronome`tickArmed
      ensures Valid()
      ensures timerRemainingSeconds == Some(old(timerRemainingSeconds.value) - 1)
      ensures old(timerRemainingSeconds.value) == 1 ==>
        playState == Stopped && activeBeat == -1 && !countdownArmed && !metronome.isPlaying
      ensures old(timerRemainingSeconds.value) > 1 ==>
        playState == Playing && countdownArmed && activeBeat == old(activeBeat) && metronome.isPlaying
        && metronome.tickArmed == old(metronome.tickArmed)
    {
      var step := CountdownUpdateFixed(timerRemainingSeconds);
      timerRemainingSeconds := Some(step.remaining);
      CountdownEffect();
      if step.stop {
        StopPlaying();
      }
    }

    /** The engine's deferred notification `metronome.pending[i]` fires; a delivered beat becomes
        the shown beat. */
    method FireBeat(i: nat)
      requires Valid() && i < |metronome.pending|
      modifies this`activeBeat, metronome`pending, metronome`delivered
      ensures Valid()
      ensures playState == Playing ==> activeBeat == old(metronome.pending[i].beat)
      ensures playState == Stopped ==> activeBeat == -1
      ensures metronome.pending == old(metronome.pending[..i] + metronome.pending[i + 1..])
      ensures metronome.delivered
        == if playState == Playing then old(metronome.delivered) + [old(metronome.pending[i]).beat]
           else old(metronome.delivered)
    {
      var beat := metronome.Fire(i);
      if beat.Some? {
        activeBeat := beat.value;
      }
    }
  }
}

=== FILE: constants.dfy ===
/** The fixed configuration of constants.ts. */
module Constants {
  import opened Wrappers
  import opened Types
  import JsText

  const MIN_BPM: int := 30
  const MAX_BPM: int := 300
  const DEFAULT_BPM: int := 120
  const DEFAULT_TIME_SIGNATURE: TimeSignature := FourFour
  const DEFAULT_BACKGROUND: string := "https://picsum.photos/1920/1080?grayscale&blur=2"

  /** How often the scheduler wakes up, in milliseconds. */
  const LOOKAHEAD_MS: real := 25.0
  /** How far past the audio clock notes are scheduled, in seconds. */
  const SCHEDULE_AHEAD_TIME_SEC: real := 0.1

  /** One entry of the time-signature dropdown; `text` is the option's label. */
  datatype SignatureOption = SignatureOption(text: string, value: TimeSignature)

  const TIME_SIGNATURE_OPTIONS: seq<SignatureOption> := [
    SignatureOption("1/4", OneFour),
    SignatureOption("2/4", TwoFour),
    SignatureOption("3/4", ThreeFour),
    SignatureOption("4/4", FourFour),
    SignatureOption("5/4", FiveFour),
    SignatureOption("6/8", SixEight)
  ]

  /** The tempo bounds are ordered, the default lies between them, and every allowed tempo is positive. */
  lemma BpmBoundsOrdered()
    ensures 0 < MIN_BPM <= DEFAULT_BPM <= MAX_BPM
    ensures MIN_BPM == 30 && DEFAULT_BPM == 120 && MAX_BPM == 300
  {
  }

  /** The wake-up period is shorter than the window scheduled ahead, so a wake-up comes before the buffer runs dry. */
  lemma WakeupShorterThanWindow()
    ensures 0.0 < LOOKAHEAD_MS / 1000.0 < SCHEDULE_AHEAD_TIME_SEC
  {
  }

  /** The default time signature is four-four: four beats per bar. */
  lemma DefaultIsFourFour()
    ensures DEFAULT_TIME_SIGNATURE == FourFour && DEFAULT_TIME_SIGNATURE.Value() == 4
  {
  }

  /** The dropdown lists the values 1..6 in ascending order, so each exactly once, and each label's
      numerator (what the label reads as up to the slash) is its value. */
  lemma TimeSignatureOptionsWellFormed()
    ensures |TIME_SIGNATURE_OPTIONS| == 6
    ensures forall i :: 0 <= i < 6 ==> TIME_SIGNATURE_OPTIONS[i].value.Value() == i + 1
    ensures forall i, j :: 0 <= i < j < 6 ==> TIME_SIGNATURE_OPTIONS[i].value != TIME_SIGNATURE_OPTIONS[j].value
    ensures forall i :: 0 <= i < 6 ==>
      JsText.ParseInt(TIME_SIGNATURE_OPTIONS[i].text) == Some(TIME_SIGNATURE_OPTIONS[i].value.Value())
  {
    var opts := TIME_SIGNATURE_OPTIONS;
    forall i | 0 <= i < 6
      ensures opts[i].value.Value() == i + 1
      ensures JsText.ParseInt(opts[i].text) == Some(opts[i].value.Value())
    {
      if i == 0 {
        NumeratorReads(opts[0].text, 1);
      } else if i == 1 {
        NumeratorReads(opts[1].text, 2);
      } else if i == 2 {
        NumeratorReads(opts[2].text, 3);
      } else if i == 3 {
        NumeratorReads(opts[3].text, 4);
      } else if i == 4 {
        NumeratorReads(opts[4].text, 5);
      } else {
        NumeratorReads(opts[5].text, 6);
      }
    }
  }

  /** A label of the form `d/d` reads, under `parseInt`, as its first digit. */
  lemma {:induction false} NumeratorReads(text: string, v: int)
    requires |text| == 3 && text[1] == '/' && JsText.IsDecimal(text[0])
    requires JsText.DigitValue(text[0]) == v
    ensures JsText.ParseInt(text) == Some(v)
  {
    JsText.ParseLeadingDigit(text);
  }
}

=== FILE: js_text.dfy ===
/** The pieces of ECMAScript's string and number behaviour the components rely on:
    `parseInt` with no radix (section 19.2.5 of ECMA-262), `Number.prototype.toString` on
    integers, `String.prototype.padStart` with a one-character filler, `trim`, and the
    truncating remainder operator `%`. */
module JsText {
  import opened Wrappers

  /** WhiteSpace and LineTerminator code points (sections 12.2 and 12.3 of ECMA-262):
      what `trim` removes and what `parseInt` skips before the number. */
  predicate IsJsSpace(c: char)
  {
    c == '\t' || c == '\U{B}' || c == '\U{C}' || c == ' ' || c == '\U{A0}' || c == '\U{FEFF}'
    || c == '\U{1680}' || ('\U{2000}' <= c <= '\U{200A}') || c == '\U{202F}' || c == '\U{205F}'
    || c == '\U{3000}' || c == '\n' || c == '\r' || c == '\U{2028}' || c == '\U{2029}'
  }

  /** The value of `c` as a digit of radix up to 36 (`0`-`9`, then letters of either case),
      or 36 when it is no digit at all. */
  function DigitValue(c: char): (d: nat)
    ensures d <= 36
    ensures d < 10 <==> '0' <= c <= '9'
  {
    if '0' <= c <= '9' then c as int - '0' as int
    else if 'a' <= c <= 'z' then c as int - 'a' as int + 10
    else if 'A' <= c <= 'Z' then c as int - 'A' as int + 10
    else 36
  }

  predicate IsDecimal(c: char)
  {
    '0' <= c <= '9'
  }

  predicate AllDecimal(s: string)
  {
    forall i :: 0 <= i < |s| ==> IsDecimal(s[i])
  }

  /** The numeral `s` read in `radix`, most significant digit first. */
  function DigitsValue(s: string, radix: nat): nat
    requires forall i :: 0 <= i < |s| ==> DigitValue(s[i]) < radix
  {
    if s == [] then 0
    else
      var init := s[..|s| - 1];
      assert forall i :: 0 <= i < |init| ==> init[i] == s[i];
      DigitsValue(init, radix) * radix + DigitValue(s[|s| - 1])
  }

  /** The length of the longest prefix of `s` made of digits of `radix`. */
  function DigitPrefixLength(s: string, radix: nat): (n: nat)
    ensures n <= |s|
    ensures forall i :: 0 <= i < n ==> DigitValue(s[i]) < radix
    ensures n < |s| ==> DigitValue(s[n]) >= radix
  {
    if s == [] || DigitValue(s[0]) >= radix then 0 else 1 + DigitPrefixLength(s[1..], radix)
  }

  /** `s` without its leading white space. */
  function TrimStart(s: string): (r: string)
    ensures |r| <= |s| && r == s[|s| - |r|..]
    ensures forall i :: 0 <= i < |s| - |r| ==> IsJsSpace(s[i])
    ensures r == [] || !IsJsSpace(r[0])
  {
    if s != [] && IsJsSpace(s[0]) then TrimStart(s[1..]) else s
  }

  /** `s` without its trailing white space. */
  function TrimEnd(s: string): (r: string)
    ensures |r| <= |s| && r == s[..|r|]
    ensures forall i :: |r| <= i < |s| ==> IsJsSpace(s[i])
    ensures r == [] || !IsJsSpace(r[|r| - 1])
  {
    if s != [] && IsJsSpace(s[|s| - 1]) then TrimEnd(s[..|s| - 1]) else s
  }

  /** `String.prototype.trim`: the part of `s` between its leading and its trailing white space. */
  function Trim(s: string): (r: string)
    ensures var k := |s| - |TrimStart(s)|;
      k + |r| <= |s| && (forall i :: 0 <= i < |r| ==> r[i] == s[k + i])
      && (forall i :: 0 <= i < k ==> IsJsSpace(s[i]))
      && (forall i :: k + |r| <= i < |s| ==> IsJsSpace(s[i]))
    ensures r == [] || (!IsJsSpace(r[0]) && !IsJsSpace(r[|r| - 1]))
  {
    TrimSlice(s);
    TrimTail(s);
    var t := TrimStart(s);
    var r := TrimEnd(t);
    assert r != [] ==> r[0] == t[0];
    r
  }

  /** Trimming the start and then the end leaves a slice of `s` that starts where the leading
      white space ends. */
  lemma {:induction false} TrimSlice(s: string)
    ensures var t := TrimStart(s); var r := TrimEnd(t); var k := |s| - |t|;
      k + |r| <= |s| && forall i :: 0 <= i < |r| ==> r[i] == s[k + i]
  {
    var t := TrimStart(s);
    var r := TrimEnd(t);
    var k := |s| - |t|;
    forall i | 0 <= i < |r|
      ensures r[i] == s[k + i]
    {
      assert r[i] == t[i] by {
        assert r == t[..|r|];
      }
      assert t[i] == s[k + i] by {
        assert t == s[k..];
      }
    }
  }

  /** Everything that trimming cuts off after the slice is white space. */
  lemma {:induction false} TrimTail(s: string)
    ensures var t := TrimStart(s); var r := TrimEnd(t); var k := |s| - |t|;
      forall i :: k + |r| <= i < |s| ==> IsJsSpace(s[i])
  {
    var t := TrimStart(s);
    var r := TrimEnd(t);
    var k := |s| - |t|;
    forall i | k + |r| <= i < |s|
      ensures IsJsSpace(s[i])
    {
      assert s[i] == t[i - k] by {
        assert t == s[k..];
      }
    }
  }

  /** `trim` leaves nothing exactly when every character is white space. */
  lemma TrimEmptyIffBlank(s: string)
    ensures Trim(s) == [] <==> forall i :: 0 <= i < |s| ==> IsJsSpace(s[i])
  {
    var k := |s| - |TrimStart(s)|;
    if Trim(s) != [] {
      assert s[k] == Trim(s)[0];
    }
  }

  /** `parseInt(s)` with the radix left out (section 19.2.5 of ECMA-262): skip leading white
      space, take an optional sign, then read the number; NaN is `None`, negative zero is zero. */
  function ParseInt(s: string): (r: Option<int>)
    ensures TrimStart(s) == [] ==> r == None
    ensures var t := TrimStart(s);
      t != [] && t[0] != '-' && t[0] != '+' && DigitValue(t[0]) >= 10 ==> r == None
    ensures var t := TrimStart(s); t != [] && IsDecimal(t[0]) && !HexPrefixed(t) ==> r.Some? && r.value >= 0
    ensures r.Some? && r.value < 0 ==> TrimStart(s)[0] == '-'
  {
    var t := TrimStart(s);
    if t != [] && t[0] == '-' then
      match ParseUnsigned(t[1..])
      case None => None
      case Some(v) => Some(-v)
    else if t != [] && t[0] == '+' then ParseUnsigned(t[1..])
    else ParseUnsigned(t)
  }

  /** Whether `u` opens with the hexadecimal prefix `0x` or `0X`. */
  predicate HexPrefixed(u: string)
  {
    |u| >= 2 && u[0] == '0' && (u[1] == 'x' || u[1] == 'X')
  }

  /** The unsigned part of `parseInt`: radix 16 after a `0x`/`0X` prefix, radix 10 otherwise. */
  function ParseUnsigned(u: string): (r: Option<int>)
    ensures r.Some? ==> r.value >= 0
    ensures u == [] || DigitValue(u[0]) >= 10 ==> r == None
    ensures HexPrefixed(u) ==> (r.Some? <==> |u| > 2 && DigitValue(u[2]) < 16)
    ensures u != [] && IsDecimal(u[0]) && !HexPrefixed(u) ==> r.Some?
  {
    if HexPrefixed(u) then ParseDigits(u[2..], 16)
    else ParseDigits(u, 10)
  }

  /** The value of the longest run of `radix` digits at the start of `d`; `None` when there is none. */
  function ParseDigits(d: string, radix: nat): (r: Option<int>)
    ensures r.Some? <==> d != [] && DigitValue(d[0]) < radix
    ensures r.Some? ==> r.value >= 0
  {
    var end := DigitPrefixLength(d, radix);
    if end == 0 then None else Some(DigitsValue(d[..end], radix))
  }

  /** A string that starts with `n` decimal digits, not followed by another one, and not opening
      with `0x`/`0X`, parses to the value of those digits. */
  lemma ParseIntDecimalPrefix(s: string, n: nat)
    requires 1 <= n <= |s| && AllDecimal(s[..n])
    requires n < |s| ==> !IsDecimal(s[n])
    requires !HexPrefixed(s)
    ensures ParseInt(s) == Some(DigitsValue(s[..n], 10))
  {
    assert IsDecimal(s[..n][0]);
    ParseIntNoSpace(s);
    ParseUnsignedDecimal(s, n);
  }

  /** With no white space in front, `parseInt` negates the unsigned part after a `-`, and reads
      a text that opens with neither sign as the unsigned part itself. */
  lemma {:induction false} ParseIntNoSpace(s: string)
    requires s != [] && !IsJsSpace(s[0])
    ensures s[0] == '-' && ParseUnsigned(s[1..]).Some? ==> ParseInt(s) == Some(-ParseUnsigned(s[1..]).value)
    ensures s[0] != '-' && s[0] != '+' ==> ParseInt(s) == ParseUnsigned(s)
  {
    assert TrimStart(s) == s;
  }

  /** The unsigned part reads a leading run of `n` decimal digits when no `0x`/`0X` opens it. */
  lemma {:induction false} ParseUnsignedDecimal(u: string, n: nat)
    requires 1 <= n <= |u| && AllDecimal(u[..n])
    requires n < |u| ==> !IsDecimal(u[n])
    requires !(|u| >= 2 && u[0] == '0' && (u[1] == 'x' || u[1] == 'X'))
    ensures ParseUnsigned(u) == Some(DigitsValue(u[..n], 10))
  {
    assert ParseUnsigned(u) == ParseDigits(u, 10);
    DecimalPrefixLength(u, n);
  }

  lemma {:induction false} DecimalPrefixLength(s: string, n: nat)
    requires n <= |s| && AllDecimal(s[..n])
    requires n < |s| ==> !IsDecimal(s[n])
    ensures DigitPrefixLength(s, 10) == n
  {
    if n > 0 {
      assert IsDecimal(s[..n][0]);
      assert s[1..][..n - 1] == s[..n][1..];
      assert n - 1 < |s[1..]| ==> s[1..][n - 1] == s[n];
      DecimalPrefixLength(s[1..], n - 1);
    }
  }

  /** Two decimal digits parse as a two-digit number, a leading `0` included. */
  lemma {:induction false} ParseTwoDigits(ss: string)
    requires |ss| == 2 && AllDecimal(ss)
    ensures ParseInt(ss) == Some(DigitValue(ss[0]) * 10 + DigitValue(ss[1]))
  {
    assert ParseInt(ss) == Some(DigitsValue(ss[..2], 10)) by {
      assert ss[..2] == ss;
      assert !HexPrefixed(ss) by { assert IsDecimal(ss[1]); }
      ParseIntDecimalPrefix(ss, 2);
    }
    TwoDigitsValue(ss);
  }

  /** The value of a two-digit numeral. */
  lemma {:induction false} TwoDigitsValue(ss: string)
    requires |ss| == 2 && AllDecimal(ss)
    ensures DigitsValue(ss[..2], 10) == DigitValue(ss[0]) * 10 + DigitValue(ss[1])
  {
    assert ss[..2] == ss && ss[..1] == [ss[0]] && ss[..1][..0] == [];
    assert DigitsValue(ss[..1], 10) == DigitsValue([], 10) * 10 + DigitValue(ss[0]);
    assert DigitsValue(ss, 10) == DigitsValue(ss[..1], 10) * 10 + DigitValue(ss[1]);
  }

  /** A text that opens with one decimal digit followed by no other digit parses as that digit. */
  lemma {:induction false} ParseLeadingDigit(s: string)
    requires 1 <= |s| && IsDecimal(s[0])
    requires |s| >= 2 ==> !IsDecimal(s[1]) && s[1] != 'x' && s[1] != 'X'
    ensures ParseInt(s) == Some(DigitValue(s[0]))
  {
    var d := s[..1];
    assert DigitsValue(d, 10) == DigitValue(s[0]) by {
      assert d == [s[0]] && d[..0] == [];
    }
    ParseIntDecimalPrefix(s, 1);
  }

  /** `parseInt` stops at a colon after a run of decimal digits. */
  lemma {:induction false} ParseStopsAtColon(m: string, rest: string)
    requires 1 <= |m| && AllDecimal(m) && rest != [] && rest[0] == ':'
    ensures ParseInt(m + rest) == ParseInt(m)
  {
    var r := m + rest;
    assert r[..|m|] == m && r[|m|] == rest[0];
    assert |m| >= 2 ==> r[1] == m[1];
    ParseIntDecimalPrefix(r, |m|);
    assert m[..|m|] == m;
    ParseIntDecimalPrefix(m, |m|);
  }

  function DecimalDigit(d: nat): (c: char)
    requires d < 10
    ensures IsDecimal(c) && DigitValue(c) == d
  {
    ('0' as int + d) as char
  }

  /** The decimal numeral of `n`, as `Number.prototype.toString` writes a non-negative integer:
      digits only, no leading zero, and reading back to `n`. */
  function NatToString(n: nat): (s: string)
    ensures 1 <= |s| && AllDecimal(s)
    ensures |s| > 1 ==> s[0] != '0'
    ensures |s| == 1 <==> n < 10
    ensures n < 100 ==> |s| <= 2
    ensures DigitsValue(s, 10) == n
  {
    if n < 10 then [DecimalDigit(n)]
    else
      var p := NatToString(n / 10);
      var s := p + [DecimalDigit(n % 10)];
      assert s[..|s| - 1] == p;
      s
  }

  /** `Number.prototype.toString` on an integer (no exponent form; see the README). */
  function IntToString(i: int): (r: string)
    ensures |r| >= 1 && (r[0] == '-' <==> i < 0)
    ensures i >= 0 ==> AllDecimal(r)
    ensures i < 0 ==> |r| >= 2 && AllDecimal(r[1..])
  {
    if i < 0 then "-" + NatToString(-i) else NatToString(i)
  }

  /** Printing an integer and parsing it back with `parseInt` gives the integer again. */
  lemma {:induction false} ParseIntToString(i: int)
    ensures ParseInt(IntToString(i)) == Some(i)
  {
    var s := IntToString(i);
    var n: nat := if i < 0 then -i else i;
    ParseUnsignedNatToString(n);
    if i < 0 {
      assert s[1..] == NatToString(n);
    }
    ParseIntNoSpace(s);
  }

  /** The digits of the decimal numeral of `n` read back as `n`. */
  lemma {:induction false} ParseUnsignedNatToString(n: nat)
    ensures ParseUnsigned(NatToString(n)) == Some(n)
  {
    var p := NatToString(n);
    assert p[..|p|] == p;
    assert |p| >= 2 ==> IsDecimal(p[1]);
    ParseUnsignedDecimal(p, |p|);
  }

  /** `s.padStart(len, fill)` for a one-character filler. */
  function PadStart(s: string, len: nat, fill: char): (r: string)
    ensures |r| == if |s| >= len then |s| else len
    ensures r[|r| - |s|..] == s
    ensures forall i :: 0 <= i < |r| - |s| ==> r[i] == fill
  {
    if |s| >= len then s else seq(len - |s|, _ => fill) + s
  }

  /** ECMAScript's `%` on integers: the remainder takes the sign of the dividend. */
  function JsRemainder(a: int, b: int): (r: int)
    requires b != 0
    ensures a >= 0 ==> 0 <= r < (if b > 0 then b else -b)
    ensures a < 0 ==> -(if b > 0 then b else -b) < r <= 0
    ensures a >= 0 && b > 0 ==> r == a % b
  {
    var m := if b > 0 then b else -b;
    var r := (if a >= 0 then a else -a) % m;
    if a >= 0 then r else -r
  }
}

=== FILE: metronome_audio.dfy ===
/** The lookahead scheduler of services/metronomeAudio.ts.

    The engine wakes up every LOOKAHEAD_MS, hands every note whose time falls before
    `audio clock + SCHEDULE_AHEAD_TIME_SEC` to the audio graph, and advances a beat index and a
    time cursor by one beat per note. The audio clock is a parameter of the operations that
    read it; the audio graph is replaced by a log of the notes handed to it; the deferred beat
    notifications are kept in a list of pending callbacks that the environment fires. */
module MetronomeService {
  import opened Wrappers
  import opened Constants

  /** One click handed to the audio graph: beat index, start time, pitch in Hz, stop time. */
  datatype Note = Note(beat: int, time: real, freq: int, stopTime: real)

  /** A deferred beat notification: the beat it reports and its delay in milliseconds. */
  datatype BeatCallback = BeatCallback(beat: int, delayMs: real)

  /** The scheduler's position: the beat index and the time of the next unscheduled note. */
  datatype Cursor = Cursor(beat: int, time: real)

  /** What one scheduler pass hands to the audio graph, and where it leaves the cursor. */
  datatype Pass = Pass(notes: seq<Note>, next: Cursor)

  /** Pitch of the first beat of a bar. */
  const ACCENT_HZ: int := 1000
  /** Pitch of every other beat. */
  const BEAT_HZ: int := 800
  /** How long an oscillator runs after its start time. */
  const CLICK_SEC: real := 0.03
  /** How far past the audio clock the first note of a run is placed. */
  const START_OFFSET_SEC: real := 0.1

  /** Length of one beat at `bpm` beats per minute. */
  function SecondsPerBeat(bpm: int): (r: real)
    requires bpm > 0
    ensures r > 0.0 && r * bpm as real == 60.0
  {
    60.0 / bpm as real
  }

  /** The beat index after `beat`: one more, or back to 0 once it reaches `beatsPerBar`. */
  function NextBeat(beat: int, beatsPerBar: int): (r: int)
    ensures beat >= 0 && beatsPerBar >= 1 ==> 0 <= r < beatsPerBar
    ensures beat + 1 < beatsPerBar ==> r == beat + 1
    ensures beat + 1 >= beatsPerBar ==> r == 0
  {
    if beat + 1 >= beatsPerBar then 0 else beat + 1
  }

  /** The pitch of a beat: the accent for beat 0, the plain pitch for every other beat. */
  function Frequency(beat: int): (hz: int)
    ensures hz == ACCENT_HZ <==> beat == 0
    ensures hz == BEAT_HZ <==> beat != 0
  {
    if beat == 0 then ACCENT_HZ else BEAT_HZ
  }

  /** The oscillator that `scheduleNote` starts for `beat` at `time`. */
  function NoteAt(beat: int, time: real): Note
  {
    Note(beat, time, Frequency(beat), time + CLICK_SEC)
  }

  /** The delay of the beat notification: the milliseconds from `now` until `time`, never negative. */
  function CallbackDelay(time: real, now: real): (ms: real)
    ensures ms >= 0.0
    ensures time >= now ==> ms == (time - now) * 1000.0
    ensures time <= now ==> ms == 0.0
  {
    var delay := (time - now) * 1000.0;
    if 0.0 > delay then 0.0 else delay
  }

  /** The notifications `scheduleNote` defers for `notes`, at clock `now`. */
  function Callbacks(notes: seq<Note>, now: real): (cbs: seq<BeatCallback>)
    ensures |cbs| == |notes|
  {
    if notes == [] then []
    else Callbacks(notes[..|notes| - 1], now) + [BeatCallback(notes[|notes| - 1].beat, CallbackDelay(notes[|notes| - 1].time, now))]
  }

  /** Each note gets its own notification: the k-th reports the k-th note's beat, delayed until
      the k-th note's time. */
  lemma {:induction false} CallbacksAt(notes: seq<Note>, now: real)
    ensures forall k :: 0 <= k < |notes| ==>
      Callbacks(notes, now)[k] == BeatCallback(notes[k].beat, CallbackDelay(notes[k].time, now))
    decreases |notes|
  {
    if notes != [] {
      CallbacksAt(notes[..|notes| - 1], now);
    }
  }

  /** What a firing notification hands to the UI: its beat while the engine plays, nothing otherwise. */
  function Deliver(isPlaying: bool, cb: BeatCallback): (r: Option<int>)
    ensures r.Some? <==> isPlaying
    ensures r.Some? ==> r.value == cb.beat
  {
    if isPlaying then Some(cb.beat) else None
  }

  /** The oscillator `scheduleNote` starts for the note under cursor `c`. */
  function NoteOf(c: Cursor): Note
  {
    NoteAt(c.beat, c.time)
  }

  /** One advance of the cursor (`nextNote`): one beat later, next beat index. */
  function Step(c: Cursor, bpm: int, beatsPerBar: int): (r: Cursor)
    requires bpm > 0
    ensures r.time > c.time
    ensures c.beat >= 0 ==> (r.beat == 0 <==> c.beat + 1 >= beatsPerBar)
    ensures 0 <= c.beat < beatsPerBar ==> 0 <= r.beat < beatsPerBar
  {
    Cursor(NextBeat(c.beat, beatsPerBar), c.time + SecondsPerBeat(bpm))
  }

  /** The cursor after `k` advances from `c` with tempo and bar fixed. */
  function Advance(c: Cursor, k: nat, bpm: int, beatsPerBar: int): (r: Cursor)
    requires bpm > 0
    ensures 0 <= c.beat < beatsPerBar ==> 0 <= r.beat < beatsPerBar
  {
    if k == 0 then c else Step(Advance(c, k - 1, bpm, beatsPerBar), bpm, beatsPerBar)
  }

  /** Advancing once and then k times is advancing k + 1 times. */
  lemma {:induction false} AdvanceShift(c: Cursor, k: nat, bpm: int, beatsPerBar: int)
    requires bpm > 0
    ensures Advance(Step(c, bpm, beatsPerBar), k, bpm, beatsPerBar) == Advance(c, k + 1, bpm, beatsPerBar)
    decreases k
  {
    if k > 0 {
      AdvanceShift(c, k - 1, bpm, beatsPerBar);
    }
  }

  /** `k` advances take the cursor `k` beats of `60/bpm` seconds later. */
  lemma {:induction false} AdvanceTime(c: Cursor, k: nat, bpm: int, beatsPerBar: int)
    requires bpm > 0
    ensures Advance(c, k, bpm, beatsPerBar).time == c.time + k as real * SecondsPerBeat(bpm)
    decreases k
  {
    if k > 0 {
      var spb := SecondsPerBeat(bpm);
      AdvanceTime(c, k - 1, bpm, beatsPerBar);
      assert k as real * spb == (k - 1) as real * spb + spb;
    }
  }

  /** From a beat inside the bar, `k` advances reach beat index `(beat + k) mod beatsPerBar`. */
  lemma {:induction false} AdvanceBeat(c: Cursor, k: nat, bpm: int, beatsPerBar: int)
    requires bpm > 0 && 0 <= c.beat < beatsPerBar
    ensures Advance(c, k, bpm, beatsPerBar).beat == (c.beat + k) % beatsPerBar
    decreases k
  {
    if k == 0 {
      ModUnique(c.beat, beatsPerBar, 0, c.beat);
    } else {
      AdvanceBeat(c, k - 1, bpm, beatsPerBar);
      ModSucc(c.beat + k - 1, beatsPerBar);
    }
  }

  /** The k-th note of a run started at audio clock `t0`, with tempo and bar held fixed:
      beat `k mod beatsPerBar` at `t0 + 0.1 + k * 60/bpm`. */
  lemma RunClosedForm(t0: real, k: nat, bpm: int, beatsPerBar: int)
    requires bpm > 0 && beatsPerBar >= 1
    ensures NoteOf(Advance(Cursor(0, t0 + START_OFFSET_SEC), k, bpm, beatsPerBar))
         == NoteAt(k % beatsPerBar, t0 + START_OFFSET_SEC + k as real * SecondsPerBeat(bpm))
  {
    AdvanceTime(Cursor(0, t0 + START_OFFSET_SEC), k, bpm, beatsPerBar);
    AdvanceBeat(Cursor(0, t0 + START_OFFSET_SEC), k, bpm, beatsPerBar);
  }

  /** A beat index left at or past a bar that `setBeatsPerBar` shortened is played once more
      as it is (the note under the cursor); from the next advance on the run restarts at beat 0
      and stays inside the bar: the k-th advance is at beat `(k - 1) mod beatsPerBar`. */
  lemma StaleBeatWraps(c: Cursor, k: nat, bpm: int, beatsPerBar: int, horizon: real)
    requires bpm > 0 && beatsPerBar >= 1 && c.beat >= beatsPerBar
    ensures c.time < horizon ==> SchedulePass(c, bpm, beatsPerBar, horizon).notes[0].beat == c.beat
    ensures k >= 1 ==> Advance(c, k, bpm, beatsPerBar).beat == (k - 1) % beatsPerBar
  {
    if k >= 1 {
      AdvanceShift(c, k - 1, bpm, beatsPerBar);
      AdvanceBeat(Step(c, bpm, beatsPerBar), k - 1, bpm, beatsPerBar);
    }
  }

  /** Later advances are strictly later in time. */
  lemma {:induction false} AdvanceIncreasing(c: Cursor, i: nat, j: nat, bpm: int, beatsPerBar: int)
    requires bpm > 0 && i < j
    ensures Advance(c, i, bpm, beatsPerBar).time < Advance(c, j, bpm, beatsPerBar).time
    decreases j
  {
    if i < j - 1 {
      AdvanceIncreasing(c, i, j - 1, bpm, beatsPerBar);
    }
  }

  /** x = q*b + r with 0 <= r < b fixes x mod b. */
  lemma ModUnique(x: int, b: int, q: int, r: int)
    requires b > 0 && 0 <= r < b && x == q * b + r
    ensures x % b == r
  {
    var q', r' := x / b, x % b;
    var d := q - q';
    assert d * b == r' - r;
    assert d >= 1 ==> d * b >= b;
    assert d <= -1 ==> d * b <= -b;
  }

  /** Adding one to a number moves its remainder one up, or back to 0 at the modulus. */
  lemma ModSucc(k: int, b: int)
    requires b > 0
    ensures k % b + 1 < b ==> (k + 1) % b == k % b + 1
    ensures k % b + 1 == b ==> (k + 1) % b == 0
  {
    var q, r := k / b, k % b;
    if r + 1 < b {
      ModUnique(k + 1, b, q, r + 1);
    } else {
      assert k + 1 == (q + 1) * b + 0;
      ModUnique(k + 1, b, q + 1, 0);
    }
  }

  /** How many more notes fit before `horizon`; the measure that ends a pass. */
  function StepsLeft(time: real, horizon: real, bpm: int): nat
    requires bpm > 0
  {
    if time < horizon then ((horizon - time) / SecondsPerBeat(bpm)).Floor + 1 else 0
  }

  /** Each note moves the cursor by a positive amount, so fewer notes fit afterwards. */
  lemma StepsLeftDecreases(time: real, horizon: real, bpm: int)
    requires bpm > 0 && time < horizon
    ensures StepsLeft(time + SecondsPerBeat(bpm), horizon, bpm) < StepsLeft(time, horizon, bpm)
  {
    var spb := SecondsPerBeat(bpm);
    var x := (horizon - time) / spb;
    assert (horizon - (time + spb)) / spb == x - 1.0;
  }

  /** One pass of the scheduler's loop with the tempo and bar fixed: the note under the cursor
      and one advance, for as long as the cursor is before `horizon`. */
  function SchedulePass(c: Cursor, bpm: int, beatsPerBar: int, horizon: real): (p: Pass)
    requires bpm > 0
    ensures p.next.time >= horizon
    ensures |p.notes| > 0 <==> c.time < horizon
    decreases StepsLeft(c.time, horizon, bpm)
  {
    if c.time < horizon then
      StepsLeftDecreases(c.time, horizon, bpm);
      var rest := SchedulePass(Step(c, bpm, beatsPerBar), bpm, beatsPerBar, horizon);
      Pass([NoteOf(c)] + rest.notes, rest.next)
    else
      Pass([], c)
  }

  /** A pass hands over the successive advances of its starting cursor, every one before
      `horizon`, and stops at the first advance at or past `horizon`. */
  lemma {:induction false} PassFollowsRun(c: Cursor, bpm: int, beatsPerBar: int, horizon: real)
    requires bpm > 0
    ensures var p := SchedulePass(c, bpm, beatsPerBar, horizon);
      p.next == Advance(c, |p.notes|, bpm, beatsPerBar)
      && forall k :: 0 <= k < |p.notes| ==>
        p.notes[k] == NoteOf(Advance(c, k, bpm, beatsPerBar)) && p.notes[k].time < horizon
    decreases StepsLeft(c.time, horizon, bpm)
  {
    if c.time < horizon {
      StepsLeftDecreases(c.time, horizon, bpm);
      var s := Step(c, bpm, beatsPerBar);
      PassFollowsRun(s, bpm, beatsPerBar, horizon);
      var rest := SchedulePass(s, bpm, beatsPerBar, horizon);
      var p := SchedulePass(c, bpm, beatsPerBar, horizon);
      assert p.notes == [NoteOf(c)] + rest.notes;
      AdvanceShift(c, |rest.notes|, bpm, beatsPerBar);
      forall k | 0 <= k < |p.notes|
        ensures p.notes[k] == NoteOf(Advance(c, k, bpm, beatsPerBar)) && p.notes[k].time < horizon
      {
        if k > 0 {
          AdvanceShift(c, k - 1, bpm, beatsPerBar);
          assert p.notes[k] == rest.notes[k - 1];
        }
      }
    }
  }

  /** While the cursor after `i` advances is before `horizon`, the pass has an i-th note: the one
      under that cursor, with its notification. */
  lemma PassPrefixStep(c: Cursor, bpm: int, beatsPerBar: int, horizon: real, i: nat, now: real)
    requires bpm > 0
    requires i <= |SchedulePass(c, bpm, beatsPerBar, horizon).notes|
    requires Advance(c, i, bpm, beatsPerBar).time < horizon
    ensures var notes := SchedulePass(c, bpm, beatsPerBar, horizon).notes;
      var cur := Advance(c, i, bpm, beatsPerBar);
      i < |notes|
      && notes[..i + 1] == notes[..i] + [NoteAt(cur.beat, cur.time)]
      && Callbacks(notes[..i + 1], now) == Callbacks(notes[..i], now) + [BeatCallback(cur.beat, CallbackDelay(cur.time, now))]
  {
    var notes := SchedulePass(c, bpm, beatsPerBar, horizon).notes;
    var cur := Advance(c, i, bpm, beatsPerBar);
    assert i < |notes| && notes[i] == NoteAt(cur.beat, cur.time) by {
      PassFollowsRun(c, bpm, beatsPerBar, horizon);
    }
    assert notes[..i + 1] == notes[..i] + [notes[i]];
    assert notes[..i + 1][..i] == notes[..i];
  }

  /** Once the cursor after `i` advances is at or past `horizon`, the pass has exactly `i` notes
      and stops at that cursor. */
  lemma PassPrefixEnd(c: Cursor, bpm: int, beatsPerBar: int, horizon: real, i: nat)
    requires bpm > 0
    requires i <= |SchedulePass(c, bpm, beatsPerBar, horizon).notes|
    requires Advance(c, i, bpm, beatsPerBar).time >= horizon
    ensures var p := SchedulePass(c, bpm, beatsPerBar, horizon);
      i == |p.notes| && p.notes[..i] == p.notes && p.next == Advance(c, i, bpm, beatsPerBar)
  {
    PassFollowsRun(c, bpm, beatsPerBar, horizon);
  }

  /** Within a pass the notes' times strictly increase. */
  lemma PassTimesIncrease(c: Cursor, bpm: int, beatsPerBar: int, horizon: real, i: nat, j: nat)
    requires bpm > 0
    requires i < j < |SchedulePass(c, bpm, beatsPerBar, horizon).notes|
    ensures SchedulePass(c, bpm, beatsPerBar, horizon).notes[i].time
          < SchedulePass(c, bpm, beatsPerBar, horizon).notes[j].time
  {
    PassFollowsRun(c, bpm, beatsPerBar, horizon);
    AdvanceIncreasing(c, i, j, bpm, beatsPerBar);
  }

  /** The first `n` notes of the run of advances from `c`. */
  ghost function RunNotes(c: Cursor, n: nat, bpm: int, beatsPerBar: int): (notes: seq<Note>)
    requires bpm > 0
    ensures |notes| == n
  {
    if n == 0 then [] else RunNotes(c, n - 1, bpm, beatsPerBar) + [NoteOf(Advance(c, n - 1, bpm, beatsPerBar))]
  }

  /** The k-th of the first notes of a run is the note under the k-th advance. */
  lemma {:induction false} RunNotesAt(c: Cursor, n: nat, bpm: int, beatsPerBar: int)
    requires bpm > 0
    ensures forall k :: 0 <= k < n ==> RunNotes(c, n, bpm, beatsPerBar)[k] == NoteOf(Advance(c, k, bpm, beatsPerBar))
    decreases n
  {
    if n > 0 {
      RunNotesAt(c, n - 1, bpm, beatsPerBar);
    }
  }

  /** A pass is determined by where it starts: the first notes of the run from `c`, all before
      `horizon`, followed by a cursor at or past `horizon`, are that pass. */
  lemma PassUnique(c: Cursor, bpm: int, beatsPerBar: int, horizon: real, notes: seq<Note>, next: Cursor)
    requires bpm > 0
    requires notes == RunNotes(c, |notes|, bpm, beatsPerBar)
    requires forall k :: 0 <= k < |notes| ==> notes[k].time < horizon
    requires next == Advance(c, |notes|, bpm, beatsPerBar) && next.time >= horizon
    ensures SchedulePass(c, bpm, beatsPerBar, horizon) == Pass(notes, next)
  {
    var p := SchedulePass(c, bpm, beatsPerBar, horizon);
    PassFollowsRun(c, bpm, beatsPerBar, horizon);
    RunNotesAt(c, |notes|, bpm, beatsPerBar);
    assert |notes| == |p.notes|;
  }

  /** Advancing m times and then n times is advancing m + n times. */
  lemma {:induction false} AdvanceAdd(c: Cursor, m: nat, n: nat, bpm: int, beatsPerBar: int)
    requires bpm > 0
    ensures Advance(Advance(c, m, bpm, beatsPerBar), n, bpm, beatsPerBar) == Advance(c, m + n, bpm, beatsPerBar)
    decreases n
  {
    if n > 0 {
      AdvanceAdd(c, m, n - 1, bpm, beatsPerBar);
    }
  }

  /** A pass that starts where `m` notes of a run begun at audio clock `t0` left the cursor
      continues that run: its k-th note is note `m + k` of the run, at beat `(m + k) mod
      beatsPerBar` and time `t0 + 0.1 + (m + k) * 60/bpm`, and it leaves the cursor after note
      `m + |notes|`. */
  lemma PassContinuesRun(t0: real, m: nat, bpm: int, beatsPerBar: int, horizon: real)
    requires bpm > 0 && beatsPerBar >= 1
    ensures var start := Cursor(0, t0 + START_OFFSET_SEC);
      var p := SchedulePass(Advance(start, m, bpm, beatsPerBar), bpm, beatsPerBar, horizon);
      p.next == Advance(start, m + |p.notes|, bpm, beatsPerBar)
      && forall k :: 0 <= k < |p.notes| ==>
        p.notes[k] == NoteAt((m + k) % beatsPerBar, t0 + START_OFFSET_SEC + (m + k) as real * SecondsPerBeat(bpm))
  {
    var start := Cursor(0, t0 + START_OFFSET_SEC);
    var c := Advance(start, m, bpm, beatsPerBar);
    var p := SchedulePass(c, bpm, beatsPerBar, horizon);
    PassFollowsRun(c, bpm, beatsPerBar, horizon);
    AdvanceAdd(start, m, |p.notes|, bpm, beatsPerBar);
    forall k | 0 <= k < |p.notes|
      ensures p.notes[k] == NoteAt((m + k) % beatsPerBar, t0 + START_OFFSET_SEC + (m + k) as real * SecondsPerBeat(bpm))
    {
      assert p.notes[k] == NoteOf(Advance(c, k, bpm, beatsPerBar));
      RunResumed(t0, m, k, bpm, beatsPerBar);
    }
  }

  /** The k-th advance after the m-th advance of a run begun at `t0` is note `m + k` of the run. */
  lemma RunResumed(t0: real, m: nat, k: nat, bpm: int, beatsPerBar: int)
    requires bpm > 0 && beatsPerBar >= 1
    ensures NoteOf(Advance(Advance(Cursor(0, t0 + START_OFFSET_SEC), m, bpm, beatsPerBar), k, bpm, beatsPerBar))
         == NoteAt((m + k) % beatsPerBar, t0 + START_OFFSET_SEC + (m + k) as real * SecondsPerBeat(bpm))
  {
    AdvanceAdd(Cursor(0, t0 + START_OFFSET_SEC), m, k, bpm, beatsPerBar);
    RunClosedForm(t0, m + k, bpm, beatsPerBar);
  }

  /** The notes' times strictly increase along `notes`. */
  ghost predicate TimesIncrease(notes: seq<Note>)
  {
    forall i, j :: 0 <= i < j < |notes| ==> notes[i].time < notes[j].time
  }

  /** Every note of a pass lies in the window from the cursor the pass starts from up to the
      horizon, and the times along the pass strictly increase. */
  lemma PassWithinWindow(c: Cursor, bpm: int, beatsPerBar: int, horizon: real)
    requires bpm > 0
    ensures var notes := SchedulePass(c, bpm, beatsPerBar, horizon).notes;
      TimesIncrease(notes) && forall k :: 0 <= k < |notes| ==> c.time <= notes[k].time < horizon
  {
    var notes := SchedulePass(c, bpm, beatsPerBar, horizon).notes;
    PassFollowsRun(c, bpm, beatsPerBar, horizon);
    forall k | 0 < k < |notes|
      ensures c.time < notes[k].time
    {
      AdvanceIncreasing(c, 0, k, bpm, beatsPerBar);
    }
    forall i, j | 0 <= i < j < |notes|
      ensures notes[i].time < notes[j].time
    {
      AdvanceIncreasing(c, i, j, bpm, beatsPerBar);
    }
  }

  /** Two runs of increasing times, the first wholly before `h` and the second wholly at or
      after it, join into one run of increasing times. */
  lemma JoinIncreasing(a: seq<Note>, b: seq<Note>, h: real)
    requires TimesIncrease(a) && TimesIncrease(b)
    requires forall k :: 0 <= k < |a| ==> a[k].time < h
    requires forall k :: 0 <= k < |b| ==> h <= b[k].time
    ensures TimesIncrease(a + b)
  {
    var both := a + b;
    forall i, j | 0 <= i < j < |both|
      ensures both[i].time < both[j].time
    {
      if j < |a| {
        assert both[i] == a[i] && both[j] == a[j];
      } else if i >= |a| {
        assert both[i] == b[i - |a|] && both[j] == b[j - |a|];
      } else {
        assert both[i] == a[i] && both[j] == b[j - |a|];
      }
    }
  }

  /** Two passes in a row, the second starting where the first stopped, hand over notes in
      strictly increasing time order, even when the tempo and the bar length were changed
      between the two wake-ups (`setBpm` and `setBeatsPerBar` only replace the fields that the
      next pass reads). */
  lemma ConsecutivePassesInOrder(c: Cursor, bpm1: int, beatsPerBar1: int, h1: real,
                                 bpm2: int, beatsPerBar2: int, h2: real)
    requires bpm1 > 0 && bpm2 > 0
    ensures var p1 := SchedulePass(c, bpm1, beatsPerBar1, h1);
      TimesIncrease(p1.notes + SchedulePass(p1.next, bpm2, beatsPerBar2, h2).notes)
  {
    var p1 := SchedulePass(c, bpm1, beatsPerBar1, h1);
    var p2 := SchedulePass(p1.next, bpm2, beatsPerBar2, h2);
    PassWithinWindow(c, bpm1, beatsPerBar1, h1);
    PassWithinWindow(p1.next, bpm2, beatsPerBar2, h2);
    JoinIncreasing(p1.notes, p2.notes, h1);
  }

  /** Every beat index in `cbs` is non-negative. */
  ghost predicate BeatsNonNegative(cbs: seq<BeatCallback>)
  {
    forall k :: 0 <= k < |cbs| ==> cbs[k].beat >= 0
  }

  /** The scheduler engine. `currentBeat` is the source's `current16thNote` (a quarter-note
      index), `tickArmed` stands for a pending `timerID`, `hasContext` for a non-null audio
      context. `log` holds every note handed to the audio graph, `pending` the beat notifications
      not yet fired, `delivered` the beats passed to the `onBeat` callback. */
  class MetronomeAudio {
    var hasContext: bool
    var isPlaying: bool
    var currentBeat: int
    var nextNoteTime: real
    var tickArmed: bool
    var bpm: int
    var beatsPerBar: int
    var log: seq<Note>
    var pending: seq<BeatCallback>
    var delivered: seq<int>

    /** How many audio contexts have been created. */
    ghost var contextsCreated: nat

    ghost predicate Valid()
      reads this
    {
      bpm > 0 && currentBeat >= 0
      && (isPlaying ==> hasContext)
      && (tickArmed ==> isPlaying)
      && contextsCreated == (if hasContext then 1 else 0)
      && BeatsNonNegative(pending)
      && (forall k :: 0 <= k < |delivered| ==> delivered[k] >= 0)
    }

    constructor ()
      ensures Valid()
      ensures !hasContext && !isPlaying && !tickArmed
      ensures bpm == DEFAULT_BPM && beatsPerBar == 4 && currentBeat == 0 && nextNoteTime == 0.0
      ensures log == [] && pending == [] && delivered == []
    {
      hasContext, isPlaying, tickArmed := false, false, false;
      currentBeat, nextNoteTime := 0, 0.0;
      bpm, beatsPerBar := 120, 4;
      log, pending, delivered := [], [], [];
      contextsCreated := 0;
    }

    /** Stores a new tempo; it is read when the next beat length is computed. */
    method SetBpm(b: int)
      requires Valid() && b > 0
      modifies this`bpm
      ensures Valid() && bpm == b
    {
      bpm := b;
    }

    /** Stores a new bar length; the next advance compares the beat index against it. */
    method SetBeatsPerBar(beats: int)
      requires Valid()
      modifies this`beatsPerBar
      ensures Valid() && beatsPerBar == beats
    {
      beatsPerBar := beats;
    }

    /** Starts playing at audio clock `now`: a no-op while playing; otherwise creates the audio
        context if there is none, resets the cursor to beat 0 at `now + 0.1`, and runs the
        scheduler, which with the same clock reading schedules nothing yet and arms the wake-up. */
    method Start(now: real)
      requires Valid()
      modifies this
      ensures Valid()
      ensures old(isPlaying) ==> unchanged(this)
      ensures !old(isPlaying) ==>
        isPlaying && hasContext && tickArmed
        && contextsCreated == 1 && (old(hasContext) ==> old(contextsCreated) == 1)
        && currentBeat == 0 && nextNoteTime == now + START_OFFSET_SEC
        && log == old(log) && pending == old(pending)
      ensures bpm == old(bpm) && beatsPerBar == old(beatsPerBar) && delivered == old(delivered)
    {
      if isPlaying {
        return;
      }
      if !hasContext {
        hasContext := true;
        contextsCreated := contextsCreated + 1;
      }
      isPlaying := true;
      currentBeat := 0;
      nextNoteTime := now + START_OFFSET_SEC;
      Scheduler(now);
    }

    /** Stops playing and cancels the pending wake-up; calling it again changes nothing. */
    method Stop()
      requires Valid()
      modifies this`isPlaying, this`tickArmed
      ensures Valid() && !isPlaying && !tickArmed
    {
      isPlaying := false;
      if tickArmed {
        tickArmed := false;
      }
    }

    /** The armed wake-up fires at audio clock `now` and runs the scheduler. */
    method Tick(now: real)
      requires Valid() && tickArmed
      modifies this
      ensures Valid() && isPlaying && tickArmed
      ensures var p := SchedulePass(Cursor(old(currentBeat), old(nextNoteTime)), bpm, beatsPerBar,
                                    now + SCHEDULE_AHEAD_TIME_SEC);
        log == old(log) + p.notes && pending == old(pending) + Callbacks(p.notes, now)
        && Cursor(currentBeat, nextNoteTime) == p.next
      ensures hasContext == old(hasContext) && bpm == old(bpm) && beatsPerBar == old(beatsPerBar)
      ensures delivered == old(delivered)
    {
      tickArmed := false;
      Scheduler(now);
    }

    /** One scheduler pass at audio clock `now`: hand over every note due before
        `now + SCHEDULE_AHEAD_TIME_SEC`, then re-arm the wake-up if still playing. Does nothing
        without an audio context. */
    method Scheduler(now: real)
      requires Valid()
      modifies this`log, this`pending, this`currentBeat, this`nextNoteTime, this`tickArmed
      ensures Valid()
      ensures !hasContext ==> unchanged(this)
      ensures hasContext ==>
        var p := SchedulePass(Cursor(old(currentBeat), old(nextNoteTime)), bpm, beatsPerBar,
                              now + SCHEDULE_AHEAD_TIME_SEC);
        log == old(log) + p.notes && pending == old(pending) + Callbacks(p.notes, now)
        && Cursor(currentBeat, nextNoteTime) == p.next
        && tickArmed == (isPlaying || old(tickArmed))
    {
      if !hasContext {
        return;
      }
      ScheduleDue(now);
      if isPlaying {
        tickArmed := true;
      }
    }

    /** The scheduler's loop: while the next note falls before `now + SCHEDULE_AHEAD_TIME_SEC`,
        hand it to the audio graph and advance the cursor. */
    method ScheduleDue(now: real)
      requires Valid() && hasContext
      modifies this`log, this`pending, this`currentBeat, this`nextNoteTime
      ensures Valid()
      ensures var p := SchedulePass(Cursor(old(currentBeat), old(nextNoteTime)), bpm, beatsPerBar,
                                    now + SCHEDULE_AHEAD_TIME_SEC);
        log == old(log) + p.notes && pending == old(pending) + Callbacks(p.notes, now)
        && Cursor(currentBeat, nextNoteTime) == p.next
    {
      var horizon := now + SCHEDULE_AHEAD_TIME_SEC;
      ghost var c0 := Cursor(currentBeat, nextNoteTime);
      ghost var notes := SchedulePass(c0, bpm, beatsPerBar, horizon).notes;
      ghost var log0, pending0 := log, pending;
      ghost var i: nat := 0;
      while nextNoteTime < horizon
        invariant Valid()
        invariant i <= |notes|
        invariant log == log0 + notes[..i] && pending == pending0 + Callbacks(notes[..i], now)
        invariant Cursor(currentBeat, nextNoteTime) == Advance(c0, i, bpm, beatsPerBar)
        decreases |notes| - i
      {
        PassPrefixStep(c0, bpm, beatsPerBar, horizon, i, now);
        ScheduleNote(currentBeat, nextNoteTime, now);
        NextNote();
        i := i + 1;
      }
      PassPrefixEnd(c0, bpm, beatsPerBar, horizon, i);
    }

    /** Advances the cursor by one beat, with the tempo and bar length current at this call. */
    method NextNote()
      requires bpm > 0
      modifies this`nextNoteTime, this`currentBeat
      ensures nextNoteTime == old(nextNoteTime) + SecondsPerBeat(bpm)
      ensures currentBeat == NextBeat(old(currentBeat), beatsPerBar)
      ensures Cursor(currentBeat, nextNoteTime) == Step(Cursor(old(currentBeat), old(nextNoteTime)), bpm, beatsPerBar)
    {
      var secondsPerBeat := 60.0 / bpm as real;
      nextNoteTime := nextNoteTime + secondsPerBeat;
      currentBeat := currentBeat + 1;
      if currentBeat >= beatsPerBar {
        currentBeat := 0;
      }
    }

    /** Hands beat `beatNumber` to the audio graph at `time` (1000 Hz on beat 0, 800 Hz otherwise,
        stopping 0.03 s later) and defers its beat notification by the time left until `time`. */
    method ScheduleNote(beatNumber: int, time: real, now: real)
      modifies this`log, this`pending
      ensures hasContext ==>
        log == old(log) + [NoteAt(beatNumber, time)]
        && pending == old(pending) + [BeatCallback(beatNumber, CallbackDelay(time, now))]
      ensures !hasContext ==> log == old(log) && pending == old(pending)
    {
      if !hasContext {
        return;
      }
      var freq := if beatNumber == 0 then 1000 else 800;
      log := log + [Note(beatNumber, time, freq, time + 0.03)];
      var delay := (time - now) * 1000.0;
      var safeDelay := if 0.0 > delay then 0.0 else delay;
      pending := pending + [BeatCallback(beatNumber, safeDelay)];
    }

    /** The deferred notification `pending[i]` fires: it reaches the UI only if the engine is
        playing at that moment. Returns what was passed to `onBeat`, if anything. */
    method Fire(i: nat) returns (beat: Option<int>)
      requires Valid() && i < |pending|
      modifies this`pending, this`delivered
      ensures Valid()
      ensures pending == old(pending[..i] + pending[i + 1..])
      ensures beat == Deliver(isPlaying, old(pending[i]))
      ensures delivered == if isPlaying then old(delivered) + [old(pending[i]).beat] else old(delivered)
      ensures beat.Some? ==> beat.value >= 0
    {
      var cb := pending[i];
      pending := pending[..i] + pending[i + 1..];
      if isPlaying {
        delivered := delivered + [cb.beat];
        beat := Some(cb.beat);
      } else {
        beat := None;
      }
    }
  }
}

=== FILE: settings_panel.dfy ===
/** The settings panel of components/SettingsPanel.tsx: the practice-timer entry field with its
    Set/Update and Clear buttons, and the prompt field whose button asks for a generated
    background. The parent's `onTimerSet` callback is recorded as the list of values it received;
    the image service as the list of prompts sent to it. */
module SettingsPanelComponent {
  import opened Wrappers
  import opened JsText

  /** The text first shown in the timer field for the parent's `timerMinutes`: its decimal form
      when it is truthy (present and not 0), the empty string otherwise. */
  function InitialLocalTimer(timerMinutes: Option<int>): (s: string)
    ensures timerMinutes.Some? && timerMinutes.value != 0 ==> ParseInt(s) == Some(timerMinutes.value)
    ensures timerMinutes.None? || timerMinutes.value == 0 ==> s == ""
  {
    if timerMinutes.Some? && timerMinutes.value != 0 then
      ParseIntToString(timerMinutes.value);
      IntToString(timerMinutes.value)
    else ""
  }

  /** What `applyTimer` passes to `onTimerSet` for the field text `s`: the number `parseInt` reads
      from it when that is a number above 0, and null when it reads NaN or a number of at most 0. */
  function TimerChoice(s: string): (r: Option<int>)
    ensures r.Some? <==> ParseInt(s).Some? && ParseInt(s).value > 0
    ensures r.Some? ==> r == ParseInt(s)
  {
    var val := ParseInt(s);
    if val.Some? && val.value > 0 then val else None
  }

  /** The field left after `applyTimer`: unchanged when the timer was accepted, cleared otherwise. */
  function TextAfterApply(s: string): (t: string)
    ensures TimerChoice(s).Some? ==> t == s
    ensures TimerChoice(s).None? ==> t == ""
  {
    if TimerChoice(s).Some? then s else ""
  }

  /** The empty field reads as NaN, so it never sets a timer. */
  lemma EmptyTextSetsNoTimer()
    ensures ParseInt("") == None && TimerChoice("") == None
  {
    assert TrimStart("") == "";
  }

  /** A positive timer shown in a freshly opened panel reads back as the same number of minutes. */
  lemma InitialTimerReadsBack(m: int)
    requires m > 0
    ensures TimerChoice(InitialLocalTimer(Some(m))) == Some(m)
  {
  }

  /** Applying the timer a second time sends the parent the same value again and leaves the field
      as the first application left it. */
  lemma ApplyTwiceSameChoice(s: string)
    ensures TimerChoice(TextAfterApply(s)) == TimerChoice(s)
    ensures TextAfterApply(TextAfterApply(s)) == TextAfterApply(s)
  {
    EmptyTextSetsNoTimer();
  }

  /** Whether a prompt is blank (`!prompt.trim()`): empty or made only of white space and line
      terminators. */
  predicate IsBlank(prompt: string): (b: bool)
    ensures b <==> forall i :: 0 <= i < |prompt| ==> IsJsSpace(prompt[i])
  {
    TrimEmptyIffBlank(prompt);
    Trim(prompt) == []
  }

  class SettingsPanel {
    /** The parent's current `timerMinutes` prop. */
    var timerMinutes: Option<int>
    /** The text of the prompt field. */
    var prompt: string
    /** The text of the timer field (`localTimer`). */
    var localTimer: string
    /** Every value passed to `onTimerSet`, oldest first. */
    var timerSets: seq<Option<int>>
    /** Every prompt sent to the image service, oldest first. */
    var generateRequests: seq<string>

    /** Mounting the panel: empty prompt, timer field from the parent's `timerMinutes`. */
    constructor (minutes: Option<int>)
      ensures timerMinutes == minutes && prompt == ""
      ensures localTimer == InitialLocalTimer(minutes)
      ensures timerSets == [] && generateRequests == []
    {
      timerMinutes := minutes;
      prompt := "";
      localTimer := InitialLocalTimer(minutes);
      timerSets := [];
      generateRequests := [];
    }

    /** The prompt field's change handler. */
    method PromptChange(value: string)
      modifies this`prompt
      ensures prompt == value
    {
      prompt := value;
    }

    /** The timer field's change handler (`handleTimerChange`). */
    method TimerChange(value: string)
      modifies this`localTimer
      ensures localTimer == value
    {
      localTimer := value;
    }

    /** `applyTimer`: calls `onTimerSet` exactly once, with the parsed minutes when they are a
        number above 0 (keeping the field), or with null (clearing the field). */
    method ApplyTimer()
      modifies this`timerSets, this`localTimer
      ensures timerSets == old(timerSets) + [TimerChoice(old(localTimer))]
      ensures localTimer == TextAfterApply(old(localTimer))
    {
      var val := ParseInt(localTimer);
      if val.Some? && val.value > 0 {
        timerSets := timerSets + [Some(val.value)];
      } else {
        timerSets := timerSets + [None];
        localTimer := "";
      }
    }

    /** The Clear button: removes the timer and empties the field. */
    method Clear()
      modifies this`timerSets, this`localTimer
      ensures timerSets == old(timerSets) + [None]
      ensures localTimer == ""
    {
      timerSets := timerSets + [None];
      localTimer := "";
    }

    /** `handleGenerate` up to the service call: a blank prompt is ignored, any other prompt is
        sent to the image service as typed. */
    method Generate()
      modifies this`generateRequests
      ensures IsBlank(prompt) ==> generateRequests == old(generateRequests)
      ensures !IsBlank(prompt) ==> generateRequests == old(generateRequests) + [prompt]
    {
      if Trim(prompt) == [] {
        return;
      }
      generateRequests := generateRequests + [prompt];
    }
  }
}

=== FILE: types.dfy ===
/** The enumerations of types.ts. They carry no behaviour of their own. */
module Types {

  /** Whether the metronome is running, as the App component tracks it. */
  datatype PlayState = Stopped | Playing

  /** The time signatures the user can choose; the enum's numeric value is the beat count. */
  datatype TimeSignature = OneFour | TwoFour | ThreeFour | FourFour | FiveFour | SixEight
  {
    /** The enum's numeric value, used as beats per bar. */
    function Value(): (n: int)
      ensures 1 <= n <= 6
    {
      match this
      case OneFour => 1
      case TwoFour => 2
      case ThreeFour => 3
      case FourFour => 4
      case FiveFour => 5
      case SixEight => 6
    }
  }
}

=== FILE: visualizer.dfy ===
/** The beat dots of components/Visualizer.tsx: one dot per beat of the bar, the dot of the beat
    being played enlarged and lit, the first beat of the bar told apart by colour. */
module VisualizerComponent {

  /** The three dot sizes (`w-4 h-4`, `w-5 h-5`, `w-6 h-6`). */
  datatype Size = Small | Medium | Large

  /** The dot colours: the default translucent white, the passive first-beat tint, the glowing
      accent of an active first beat and the glowing white of any other active beat. */
  datatype Colour = Dim | FirstBeatTint | AccentGlow | PlainGlow

  /** One rendered dot: its beat index and its style. */
  datatype Dot = Dot(index: int, active: bool, size: Size, colour: Colour)

  /** The default style of a dot that is neither active nor the first beat. */
  predicate IsDefaultStyle(d: Dot)
  {
    d.size == Small && d.colour == Dim
  }

  /** The style of the dot for `beatIndex` while `activeBeat` is playing. */
  function DotFor(beatIndex: int, activeBeat: int): (d: Dot)
    ensures d.index == beatIndex
    ensures d.active <==> beatIndex == activeBeat
  {
    var isActive := activeBeat == beatIndex;
    var isFirstBeat := beatIndex == 0;
    if isActive then
      Dot(beatIndex, true, Large, if isFirstBeat then AccentGlow else PlainGlow)
    else if isFirstBeat then
      Dot(beatIndex, false, Medium, FirstBeatTint)
    else
      Dot(beatIndex, false, Small, Dim)
  }

  /** `Array.from({ length: n }, (_, i) => i)`: the indices 0 .. n - 1; a negative length gives none. */
  function BeatIndices(n: int): (s: seq<int>)
    ensures |s| == if n < 0 then 0 else n
    ensures forall i :: 0 <= i < |s| ==> s[i] == i
    decreases if n < 0 then 0 else n
  {
    if n <= 0 then [] else BeatIndices(n - 1) + [n - 1]
  }

  /** The dots rendered for a bar of `beatsPerBar` beats while `activeBeat` plays. */
  function Dots(activeBeat: int, beatsPerBar: int): (ds: seq<Dot>)
    ensures |ds| == if beatsPerBar < 0 then 0 else beatsPerBar
    ensures forall i :: 0 <= i < |ds| ==> ds[i] == DotFor(i, activeBeat)
  {
    var indices := BeatIndices(beatsPerBar);
    seq(|indices|, i requires 0 <= i < |indices| => DotFor(indices[i], activeBeat))
  }

  /** There are exactly `beatsPerBar` dots (none for a non-positive bar), indexed 0, 1, ... in order. */
  lemma DotsInOrder(activeBeat: int, beatsPerBar: int)
    ensures |Dots(activeBeat, beatsPerBar)| == if beatsPerBar < 0 then 0 else beatsPerBar
    ensures forall i :: 0 <= i < |Dots(activeBeat, beatsPerBar)| ==> Dots(activeBeat, beatsPerBar)[i].index == i
  {
  }

  /** A dot is active exactly when it is the dot of `activeBeat`. */
  lemma ActiveIffActiveBeat(activeBeat: int, beatsPerBar: int, i: int)
    requires 0 <= i < |Dots(activeBeat, beatsPerBar)|
    ensures Dots(activeBeat, beatsPerBar)[i].active <==> i == activeBeat
  {
  }

  /** At most one dot is active, and it is the one of the beat being played. */
  lemma AtMostOneActive(activeBeat: int, beatsPerBar: int, i: int, j: int)
    requires 0 <= i < |Dots(activeBeat, beatsPerBar)| && 0 <= j < |Dots(activeBeat, beatsPerBar)|
    requires Dots(activeBeat, beatsPerBar)[i].active && Dots(activeBeat, beatsPerBar)[j].active
    ensures i == j == activeBeat
  {
  }

  /** With `activeBeat` at -1 (the stopped state) no dot is active and none is large. */
  lemma NoneActiveWhenStopped(beatsPerBar: int)
    ensures forall d :: d in Dots(-1, beatsPerBar) ==> !d.active && d.size != Large
  {
    var ds := Dots(-1, beatsPerBar);
    forall d | d in ds
      ensures !d.active && d.size != Large
    {
      var i :| 0 <= i < |ds| && ds[i] == d;
      assert d.index == i;
    }
  }

  /** An active dot is large, with the accent colour on the first beat and the plain glow on any
      other beat; an inactive first dot is middle-sized and tinted; every other inactive dot keeps
      the default style. */
  lemma DotStyles(beatIndex: int, activeBeat: int)
    ensures var d := DotFor(beatIndex, activeBeat);
      (d.active ==> d.size == Large && (d.colour == AccentGlow <==> beatIndex == 0)
                    && (d.colour == PlainGlow <==> beatIndex != 0))
      && (!d.active && beatIndex == 0 ==> d.size == Medium && d.colour == FirstBeatTint)
      && (!d.active && beatIndex != 0 ==> IsDefaultStyle(d))
  {
  }

  /** The first dot never has the default style, active or not, and the default style marks exactly
      the inactive dots of the other beats. */
  lemma FirstDotNeverDefault(activeBeat: int, beatsPerBar: int, i: int)
    requires 0 <= i < |Dots(activeBeat, beatsPerBar)|
    ensures IsDefaultStyle(Dots(activeBeat, beatsPerBar)[i]) <==> i != 0 && i != activeBeat
  {
  }
}

=== FILE: wrappers.dfy ===
/** The optional value used where the source has `T | null` or a parse that may yield NaN. */
module Wrappers {

  datatype Option<+T> = None | Some(value: T)
}
